=== FILE: README.md ===
# BRO CPT profiler: a Dafny model

The brofiles profiler checks a BHP registration request for a cone
penetration test (CPT). A request is an XML document. The document
parser does four things:

- it flattens the element tree into nested dicts, keyed by local tag names;
- it turns the `;`/`,`-separated `values` text of the CPT and of each
  dissipation test into numeric matrices;
- it decides whether the document is a CPT registration request;
- it looks up the survey's parameter flags.

Thirteen rules then inspect the document:

- five check that cone penetrometer properties are present;
- five count the rows whose measured column holds the marker
  `-999999` ("waarde ontbreekt"), each only when the survey flags the
  column as measured (`ja`);
- three do the same count on every dissipation test.

`evaluateRules` collects every report, and every exception a rule
raises, in a fixed order.

The model is split into these modules:

- `Wrappers` (wrappers.dfy): `Option`, and `Result` over the Python
  exceptions the code can raise (KeyError, TypeError, AttributeError,
  IndexError, ValueError).
- `Collections` (collections.dfy): index facts about sequences and maps
  that the recursive definitions share, and `Store`, the map built by
  assigning a list of values to a list of keys in order.
- `Strings` (strings.dfy): `split` with a one-character separator, its
  inverse `join`, and `in` between strings.
- `Digits` (digits.dfy): `str()` of a count.
- `Whitespace` (whitespace.dfy): `strip()` with Python's whitespace
  characters.
- `Xml` (xml.dfy): the element tree, `stripNSFromTagName` (the regular
  expression `{.*}`, whose `.` stops at a newline), and the element
  searches. The searches follow lxml's `end` events, that is, post-order.
- `Metadata` (metadata.dfy): the values of the flattened dict (None, a
  str, or a dict whose keys may be None), with Python's `in` and `[]` on
  them.
- `Flatten` (flatten.dfy): `lxml_to_dict`, including the renaming of
  same-named siblings and the skipping of comments.
- `Siblings` (siblings.dfy): the renaming of siblings with any mix of
  names, the k-th occurrence of a name going under the name followed by
  `str(k-1)`.
- `DocumentParser` (parser.dfy): `convertDataToMatrix`,
  `generateMatrix`, `determineIsCPT`, `getCptParametersMap`, `getTag`,
  and the constructor.
- `Profiler` (profiler.dfy): the column constants, the thirteen rules,
  `cptParametersFilled`, `appendToErrorList` and `evaluateRules`.

An exception is a value: an `Err` of `Result`. It propagates the way
Python's does, through Dafny's `:-`. A document's cells are `real`.
`float()` is a parameter `parse: string -> Option<C>`, which gives None
where `float()` raises.

Some behaviour of the code is easy to miss:

- Renamed siblings start at suffix 1: the second `b` becomes `b1` and
  the third `b2`.
- The searches collect elements in post-order (children before their
  parent), not in document order.
- A `conePenetrationTest` or `dissipationTest` without a `values`
  element raises AttributeError (`None.text`). It is not treated as
  absent.
- When every row is dropped, numpy gives a 1x0 matrix. On it, a CPT
  column rule whose flag is `ja`, and every dissipation rule, raises
  IndexError. A CPT column rule whose flag is not `ja` returns None
  before it reads the matrix.
- `determineIsCPT` uses `in`. On a str that is a substring test, so a
  `sourceDocument` whose text contains `CPT` makes the document a CPT
  request; on None it raises TypeError.
- A dissipation rule reports one entry holding a list with one message
  per affected matrix. It does not report one entry per matrix.

## Model

| member | source | states |
|---|---|---|
| Strings.Split | scripts/bhpdocumentparser.py:49-50 | `split` gives one more part than there are separators; no part contains the separator |
| Strings.JoinSplit | scripts/bhpdocumentparser.py:49-50 | joining the parts of `split` with the separator gives the input back: no character is lost or added |
| Strings.SplitConcat | scripts/bhpdocumentparser.py:49 | splitting `a;b` gives the parts of `a` followed by the parts of `b` |
| Strings.SplitFirstPart | scripts/bhpdocumentparser.py:49 | a part free of the separator, followed by the separator, becomes the first part on its own |
| Strings.SplitJoin | scripts/bhpdocumentparser.py:49-50 | splitting undoes joining for parts free of the separator |
| Digits.NatToString | scripts/bhpdocumentparser.py:80 | `str(count)` is a non-empty string of decimal digits without a leading zero, whose value is the count |
| Whitespace.StripSpace | scripts/bhpdocumentparser.py:153 | `strip()` returns an infix of its input with only whitespace around it; it neither starts nor ends with whitespace; a string without whitespace at its ends is returned as it is |
| Whitespace.StripPadded | scripts/bhpdocumentparser.py:153 | `strip()` removes exactly the whitespace padding around a string that neither begins nor ends with whitespace |
| Strings.IsInfix | scripts/bhpdocumentparser.py:26-28 | `k in s` between strings holds exactly when `k` occurs in `s` at some position |
| Xml.CloseOnLine | scripts/bhpdocumentparser.py:139 | the greedy `.*}` after a `{` ends at the last `}` before the first newline, and there is a match exactly when such a `}` exists |
| Xml.StripBraces | scripts/bhpdocumentparser.py:139 | the substitution never makes a string longer, and keeps a string without a `{`, or without a `}`, as it is: the pattern needs both to match |
| Xml.StripNs | scripts/bhpdocumentparser.py:136-140 | a non-string tag gives None and a string tag a string; stripping never makes a tag longer |
| Xml.StripBracesUnchanged | scripts/bhpdocumentparser.py:139 | the substitution leaves a tag unchanged exactly when no `{` is followed by a `}` on the same line |
| Xml.StripBracesLeavesNoPair | scripts/bhpdocumentparser.py:139 | after the substitution no match of the pattern is left |
| Xml.StripNsIdempotent | scripts/bhpdocumentparser.py:136-140 | stripping the namespace twice is stripping it once |
| Xml.StripBracesNamespace | scripts/bhpdocumentparser.py:139 | a tag `{uri}local` (no newline in the uri, no `}` in the local name) strips to `local` |
| Xml.NamedInIsFilteredPostOrder | scripts/bhpdocumentparser.py:143-147 | the search collects exactly the named elements, in the order their end events arrive |
| Xml.GetListOfElementsByTagName | scripts/bhpdocumentparser.py:142-150 | None exactly when no element of the tree, the root included, has the local name; otherwise the non-empty list of all of them in end-event order |
| Xml.FirstNamed | scripts/bhpdocumentparser.py:123-134 | the walk returns the first element, in end-event order, with the local name, and None when there is none |
| Xml.FirstNamedIsHeadOfList | scripts/bhpdocumentparser.py:129-150 | the single search finds nothing exactly when the list search does, and otherwise returns the head of that list |
| Metadata.TextValue | scripts/bhpdocumentparser.py:68 | a leaf's value is None exactly when the element has no text |
| Metadata.In | scripts/bhpdocumentparser.py:26-28 | `key in v` is membership for a dict and a substring test for a str; it raises TypeError exactly for None |
| Metadata.Index | profiler.py:120 | `v[key]` succeeds exactly on a dict holding the key and returns its value; it raises KeyError exactly for a dict without the key, and TypeError exactly for a value that is not a dict |
| Metadata.IndexPath | profiler.py:120 | a chain of `[]` succeeds exactly when the path exists through dicts (`Lookup`), and then yields the value found there; it raises only KeyError or TypeError |
| Metadata.IndexPathFollowsLookup | profiler.py:120 | a chain of `[]` succeeds exactly when the path exists through dicts, and then yields the value there; when it fails, the failing step raised KeyError if that step was a dict and TypeError if it was not |
| Flatten.LxmlToDict | scripts/bhpdocumentparser.py:63-86 | the result has no key other than the element's local name; a leaf never raises and gives `{}` exactly when it is named `values`, otherwise its text; a non-empty result for an element with children maps to a dict, and an element with at least one non-comment child that flattens without raising gives exactly one key, its local name, holding a dict |
| Flatten.MergeChildren | scripts/bhpdocumentparser.py:70-85 | after a child whose tag is a string has been merged, `ret[tag]` exists |
| Flatten.MergeStep | scripts/bhpdocumentparser.py:72-85 | one turn of the loop: an exception of the child's own flattening passes through; otherwise a comment child leaves the state as it is, any other child leaves `ret[tag]` set, and the only exception the merge adds is KeyError |
| Flatten.MergeChild | scripts/bhpdocumentparser.py:78-85 | merging a child always leaves `ret[tag]` set; it fails only with KeyError, and only when the child's dict lacks its own name |
| Flatten.CommentsIgnored | scripts/bhpdocumentparser.py:75-77 | leaving out the comment children does not change the merge: result, counters and exceptions stay the same |
| Flatten.CommentChildrenIgnored | scripts/bhpdocumentparser.py:69-86 | an element whose children are all comments flattens to `{}`; otherwise it flattens as if the comments were not there |
| Flatten.SiblingKeyInjective | scripts/bhpdocumentparser.py:80 | the keys given to the first, second, third… same-named sibling are all different |
| Flatten.NumberedKeys | scripts/bhpdocumentparser.py:78-81 | the renamed dict's keys are exactly the sibling keys of the positions |
| Flatten.NumberedLookup | scripts/bhpdocumentparser.py:78-81 | no value of a same-named sibling is overwritten: each stays under its own key |
| Flatten.NumberedSize | scripts/bhpdocumentparser.py:78-81 | n same-named siblings give n keys |
| Flatten.MergeNumberedStep | scripts/bhpdocumentparser.py:78-85 | each further same-named sibling moves the loop from the state after k siblings to the state after k+1 |
| Flatten.MergeNumbered | scripts/bhpdocumentparser.py:71-85 | the loop over same-named siblings ends in the fully numbered state |
| Flatten.DuplicateSiblingsNumbered | scripts/bhpdocumentparser.py:63-86 | n children with the same name give the keys `name`, `name1`, …, `name(n-1)`, each holding its own child's value |
| Flatten.EmptyDuplicateRaises | scripts/bhpdocumentparser.py:78-81 | a second same-named child whose own dict is empty makes the flattening raise KeyError |
| Siblings.SiblingKeysMeet | scripts/bhpdocumentparser.py:79-80 | when neither name is the other followed by digits, two sibling keys are equal only for the same name and the same number |
| Siblings.RenamedKeysDistinct | scripts/bhpdocumentparser.py:78-81 | under that condition, no two siblings, of the same name or not, get the same key |
| Siblings.RenamedLookup | scripts/bhpdocumentparser.py:78-81 | under that condition the renamed dict holds each sibling's value under its own key, and has one key per sibling |
| Siblings.BareKeyPresent | scripts/bhpdocumentparser.py:78 | the bare name `x` is a key of the renamed dict exactly when a sibling named `x` has been seen: `subtag in ret[tag].keys()` asks whether `x` occurred before |
| Siblings.MergeRenamedStep | scripts/bhpdocumentparser.py:78-85 | one more sibling moves the loop from the renamed dict of the siblings so far, with counters one below each name's occurrences, to the same for one more sibling |
| Siblings.MergeRenamed | scripts/bhpdocumentparser.py:71-85 | the loop over siblings with any mix of names never raises and ends in the renamed dict |
| Siblings.SiblingsRenamed | scripts/bhpdocumentparser.py:63-86 | siblings with any mix of names, each flattening to `{name: value}`, flatten to one dict where the k-th sibling of a name (counting from 0) sits under the name for k = 0 and under the name followed by `str(k)` otherwise, and no value is lost; e.g. `a, b, a` gives `a, b, a1` |
| DocumentParser.SplitFields | scripts/bhpdocumentparser.py:50 | each line becomes its comma-separated fields, one entry per line |
| DocumentParser.KeepWidth | scripts/bhpdocumentparser.py:51 | the kept rows are rows of the input with exactly the expected field count; none is added; nothing is dropped when every row has that count |
| DocumentParser.ConvertDataToMatrix | scripts/bhpdocumentparser.py:48-51 | every row has the expected field count and is the field list of one `;`-segment; there are never more rows than segments, and exactly as many when every segment has the expected count |
| DocumentParser.ConvertSegment | scripts/bhpdocumentparser.py:49-51 | a single segment is kept exactly when it has `width - 1` commas |
| DocumentParser.ConvertConcat | scripts/bhpdocumentparser.py:49-51 | the rows of `a;b` are the rows of `a` followed by the rows of `b`: each row is filtered on its own and order is kept |
| DocumentParser.ParseRow | scripts/bhpdocumentparser.py:52 | a row converts exactly when every field is a number; the result has one cell per field, each the value of that field; otherwise ValueError |
| DocumentParser.ToNumbers | scripts/bhpdocumentparser.py:52 | the matrix converts exactly when every row does, keeping its shape; otherwise ValueError |
| DocumentParser.TestMatrix | scripts/bhpdocumentparser.py:36-37 | rows have the expected width; a test without a `values` element, or with one that has no text, raises AttributeError; otherwise the result is the conversion of the `values` text, which raises only ValueError |
| DocumentParser.TestMatrices | scripts/bhpdocumentparser.py:39-44 | succeeds exactly when every test's matrix does, giving one matrix per test in order; otherwise it raises the exception of one of the tests, which is AttributeError or ValueError |
| DocumentParser.GenerateMatrix | scripts/bhpdocumentparser.py:31-45 | succeeds exactly when the first `conePenetrationTest`, if any, and every `dissipationTest` convert, and otherwise raises the CPT test's exception first, and else the exception of one of the dissipation tests, always AttributeError or ValueError; the CPT matrix is set exactly when the tree has a `conePenetrationTest` and comes from the first one with 25 fields; the dissipation matrices stay unset exactly when there is no `dissipationTest`, and otherwise there is one 5-field matrix per test in search order |
| DocumentParser.DetermineIsCpt | scripts/bhpdocumentparser.py:25-29 | raises nothing but TypeError, and raises it when `registrationRequest` or `sourceDocument` is None; a str `registrationRequest` raises TypeError exactly when it contains `sourceDocument` (the `[...]` after a passing substring test), and otherwise gives false; the flag is true exactly when `registrationRequest.sourceDocument.CPT` exists or `sourceDocument` is a str containing `CPT` (the substring test of `in`); it stays false when the path is missing and the values on the way are dicts |
| DocumentParser.GuardedPath | scripts/bhpdocumentparser.py:101-113 | a chain of lookups with `is not None` checks gives None exactly when a value on the path is None; otherwise the value at the path, or the KeyError/TypeError of a failed lookup; a KeyError means some dict on the path lacks the next key |
| DocumentParser.GetCptParametersMap | scripts/bhpdocumentparser.py:101-113 | the survey's `parameters` node when it exists and is not None; None exactly when a value on the path, `parameters` included, is None; a missing key raises KeyError or TypeError, nothing else |
| DocumentParser.GetTag | scripts/bhpdocumentparser.py:152-156 | raises ValueError exactly when the stripped name does not have exactly one `:` |
| DocumentParser.QualifiedNameSplits | scripts/bhpdocumentparser.py:153 | `prefix:local` without surrounding whitespace unpacks into its prefix and local name |
| DocumentParser.GetTagResolves | scripts/bhpdocumentparser.py:152-156 | `prefix:local`, with any whitespace around it, resolves to the prefix's namespace followed by `local`, or to None for an unknown prefix |
| DocumentParser.GetTagThenStripNs | scripts/bhpdocumentparser.py:152-156 | with the namespace map in its stored `{uri}` form, stripping the namespace off a resolved tag, padded or not, gives the local name back |
| DocumentParser.Construct | scripts/bhpdocumentparser.py:13-18 | a document is constructed exactly when `generateMatrix`, `lxml_to_dict` and `determineIsCPT` all succeed, and an exception of `generateMatrix` comes first; its metadata is the flattening of the root, and its flag is `determineIsCPT` of that metadata; CPT rows have 25 cells and dissipation rows 5; the dissipation matrices are unset exactly when there is no dissipation test |
| Profiler.CptColumn | profiler.py:6-11 | every CPT column the rules read lies within the 25 fields of a row |
| Profiler.DissipationColumn | profiler.py:13-16 | every dissipation column lies within the 5 fields of a row |
| Profiler.MissingRows | profiler.py:43 | `np.where` lists, in increasing order, exactly the rows whose cell in the column is -999999 |
| Profiler.ColumnMissing | profiler.py:43 | a column access raises IndexError exactly when the matrix is empty (1x0) or a row lacks the column; otherwise it gives the rows missing the value |
| Profiler.ColumnOfWellFormedMatrix | profiler.py:43 | a non-empty matrix whose rows all have the layout's width never raises on a column of that layout |
| Profiler.CptParametersFilled | profiler.py:157-158 | on a dict: true exactly when the flag is present and equals `ja`; None raises TypeError; a str raises TypeError exactly when it contains the flag name; no other exception; true only when the flag is `ja` |
| Profiler.PresenceRule | profiler.py:119-147 | raises KeyError or TypeError when the cone penetrometer path is missing; on a dict it reports "not filled" exactly when the property is absent; on None (an empty element) it raises TypeError; on a str it reports exactly when the property name is not a substring |
| Profiler.CptColumnRule | profiler.py:40-78 | an exception of the parameter lookup or of `cptParametersFilled` passes through; silent when the flag is not `ja`; with the flag set, no CPT matrix raises TypeError and a missing column IndexError; otherwise silent exactly when no row is marked, and else one message quoting the matrix's row count and the number of marked rows |
| Profiler.MissingRowsCount | profiler.py:43-44 | `result[0].size` is the number of rows whose cell in the column is -999999 |
| Profiler.CptColumnRuleReports | profiler.py:40-78 | with the flag `ja` and a non-empty matrix that has the column, the rule is silent exactly when the set of marked rows is empty, and otherwise reports the row count and the size of that set |
| Profiler.DissipationMessages | profiler.py:84-88 | the loop succeeds exactly when every matrix has the column, and raises IndexError otherwise; it writes at most one message per matrix |
| Profiler.MarkedMatrices | profiler.py:84-88 | the matrices that get a message: in increasing order, exactly those with a marked row |
| Profiler.DissipationMessagesExpected | profiler.py:84-88 | the messages are, in matrix order, one per marked matrix, each quoting that matrix's row count and its number of marked rows |
| Profiler.DissipationSilent | profiler.py:84-88 | the loop produces no message exactly when no matrix has a marked row |
| Profiler.DissipationRule | profiler.py:80-117 | silent without dissipation tests; it raises, always IndexError, exactly when some matrix lacks the column; a report is a non-empty list of at most one message per test; silent only when no matrix has a marked row |
| Profiler.DissipationRuleReports | profiler.py:80-117 | when every matrix has the column, the rule is silent exactly when no matrix is marked, and otherwise reports the list of one message per marked matrix, in order |
| Profiler.RunRule | profiler.py:22-36 | presence and CPT rules report a single message, dissipation rules a list |
| Profiler.RuleIndex | profiler.py:22-36 | `evaluateRules` applies each of the thirteen rules exactly once: the five presence rules first, then the five CPT column rules, then the three dissipation rules |
| Profiler.AppendToErrorList | profiler.py:149-155 | the entries already in the list stay; one entry is added exactly when the rule reports or raises, and it is the report or the exception |
| Profiler.ErrorList | profiler.py:20-38 | at most one entry per rule; empty exactly when every rule returns None |
| Profiler.ErrorListAppend | profiler.py:20-38 | the list for two runs of rules is the first run's list followed by the second's: an exception does not stop the rules after it |
| Profiler.ErrorListEntries | profiler.py:20-38 | the list is the entries each rule makes on its own (nothing for None, its report or its exception otherwise), joined in rule order: every entry comes from one rule, and entries keep the order of their rules |
| Profiler.AppendToErrorListShift | profiler.py:149-155 | what `appendToErrorList` adds does not depend on the entries already in the list |
| Profiler.CollectErrors | profiler.py:20-38 | calling `appendToErrorList` on each rule of a list in turn, starting from an empty list, builds exactly the error list of those rules |
| Profiler.EvaluateRules | profiler.py:20-38 | the thirteen rules applied in order give at most thirteen entries; the list is empty exactly when every rule returns None |
| Profiler.KeyErrors | profiler.py:149-155 | rules that all raise KeyError contribute one KeyError entry each |
| Profiler.NotARegistrationRequest | profiler.py:20-38 | a document without `registrationRequest` and without dissipation tests gets exactly ten KeyError entries: five from the presence rules, five from the CPT column rules |
| Profiler.CptColumnRuleIndexError | profiler.py:40-46 | with 25-field rows, a CPT column rule raises IndexError only on the empty matrix |
| Profiler.ConstructedCptColumns | profiler.py:40-78 | on a constructed document with a non-empty CPT matrix, no CPT column rule raises IndexError |

## Left out

- Reading and writing XML (`fromString`, `fromFile`, `toString`) and `getRoot`: these are lxml I/O. The model starts from a parsed `Element` tree.
- `generateNsMap`: the namespace declarations are lxml parser events. The namespace map is a parameter of `GetTag`. The map is a class attribute shared by every document; that sharing is not modelled.
- `getElementByTag`: it relies on lxml's own tag filter for `iterwalk`, which is not modelled.
- `stackedPrintOfStructure`: a debugging printout.
- `getCptMatrix`, `getDissipation`, `isCPT`: plain accessors. They are the fields of `Document`.
- DocumentParser.ParseRow: `float()` is a parameter. Its accepted syntax and floating-point rounding are not modelled; cells are exact `real`s.
- Flatten.LxmlToDict: a Python dict is a `map`, so insertion order is not kept. Nothing in the rules depends on it.
- Profiler.PresenceRule, Profiler.CptColumnRule, Profiler.DissipationRule: a message is its rule and the numbers it quotes. The Dutch wording is not modelled.
- `np.float`: newer numpy releases removed it, and there `convertDataToMatrix` raises AttributeError. The model assumes a numpy that still has the alias.
- Exceptions are the five the code can raise on these paths. Any other exception is caught by `appendToErrorList` in the same way, and the model has no such exception to catch.
- Siblings.SiblingsRenamed, Siblings.RenamedLookup: stated only when no sibling's name is another sibling's name followed by digits. Otherwise a numbered key can meet a real name and the code overwrites a value (`b1, b, b` loses the value of `b1`); the loop model does the same, but no lemma describes the result.
- Siblings.SiblingsRenamed: stated only for children that each flatten to `{name: value}`. A `values` leaf (which flattens to `{}`) and comment children are not covered by it; comments are covered by Flatten.CommentsIgnored, and an empty child dict merged into `ret[tag]` adds no key, but no lemma combines that case with the renaming.
- Matrices are not forced to be rectangular. Every matrix built by `Construct` is rectangular, and `ColumnMissing` raises IndexError for any row lacking the column.

=== FILE: collections.dfy ===
/** Small facts about sequences and maps, proved once so that the
    recursive definitions can use them without re-deriving them in a
    crowded context. */
module Collections {

  /** Element `i` of `s` is element `i - 1` of its tail. */
  lemma TailIndex<T>(s: seq<T>)
    requires |s| >= 1
    ensures forall i :: 1 <= i < |s| ==> s[i] == s[1..][i - 1]
  {
  }

  /** Element `i` of `[x] + xs` is element `i - 1` of `xs`. */
  lemma ConsIndex<T>(x: T, xs: seq<T>)
    ensures forall i :: 1 <= i < |[x] + xs| ==> ([x] + xs)[i] == xs[i - 1]
  {
  }

  /** Concatenation is associative. */
  lemma AppendAssoc<T>(x: seq<T>, y: seq<T>, z: seq<T>)
    ensures x + (y + z) == (x + y) + z
  {
  }

  /** Updating a map whose only possible key is `key` gives the singleton. */
  lemma UpdateSingleton<K, V>(m: map<K, V>, key: K, v: V)
    requires forall k :: k in m ==> k == key
    ensures m[key := v] == map[key := v]
  {
  }

  /** Merging a singleton into a map is updating the map at its key. */
  lemma MergeSingleton<K, V>(m: map<K, V>, key: K, v: V)
    ensures m + map[key := v] == m[key := v]
  {
  }

  /** A prefix followed by the next element is the longer prefix. */
  lemma TakeSnoc<T>(s: seq<T>, k: nat)
    requires k < |s|
    ensures s[..k] + [s[k]] == s[..k + 1]
  {
  }

  /** The map holding `vs[i]` under `keys[i]`, later entries overriding
      earlier ones with the same key. */
  function Store<K, V>(keys: seq<K>, vs: seq<V>): map<K, V>
    requires |keys| == |vs|
  {
    if keys == [] then map[]
    else Store(keys[..|keys| - 1], vs[..|vs| - 1])[keys[|keys| - 1] := vs[|vs| - 1]]
  }

  /** One more entry updates the map at its key. */
  lemma StoreSnoc<K, V>(keys: seq<K>, vs: seq<V>, k: K, v: V)
    requires |keys| == |vs|
    ensures Store(keys + [k], vs + [v]) == Store(keys, vs)[k := v]
  {
    assert (keys + [k])[..|keys|] == keys;
    assert (vs + [v])[..|vs|] == vs;
  }

  /** The keys of the map are the keys listed. */
  lemma {:induction false} StoreKeys<K, V>(keys: seq<K>, vs: seq<V>)
    requires |keys| == |vs|
    ensures forall k :: k in Store(keys, vs) <==> k in keys
    decreases |keys|
  {
    if keys != [] {
      var last := |keys| - 1;
      StoreKeys(keys[..last], vs[..last]);
      assert keys == keys[..last] + [keys[last]];
    }
  }

  /** With distinct keys, every value stays under its own key and the map
      has one entry per key. */
  lemma {:induction false} StoreLookup<K, V>(keys: seq<K>, vs: seq<V>)
    requires |keys| == |vs|
    requires forall i, j :: 0 <= i < j < |keys| ==> keys[i] != keys[j]
    ensures forall i :: 0 <= i < |keys| ==> keys[i] in Store(keys, vs) && Store(keys, vs)[keys[i]] == vs[i]
    ensures |Store(keys, vs)| == |keys|
    decreases |keys|
  {
    if keys != [] {
      var last := |keys| - 1;
      var init := keys[..last];
      assert forall i :: 0 <= i < last ==> init[i] == keys[i] && vs[..last][i] == vs[i];
      StoreLookup(init, vs[..last]);
      StoreKeys(init, vs[..last]);
      assert keys[last] !in init;
    }
  }
}

=== FILE: digits.dfy ===
/** `str()` of a non-negative int, as used to number renamed siblings. */
module Digits {

  /** Value of a string of decimal digits. */
  function ParseDecimal(s: string): nat
  {
    if s == [] then 0
    else
      var d := s[|s| - 1] as int - '0' as int;
      ParseDecimal(s[..|s| - 1]) * 10 + (if 0 <= d then d else 0)
  }

  function DigitChar(d: nat): (c: char)
    requires d < 10
    ensures '0' <= c <= '9' && c as int - '0' as int == d
  {
    ('0' as int + d) as char
  }

  /** `str(n)`: the decimal digits of `n`, without leading zeros. Reading
      the digits back gives `n`, so distinct numbers print differently. */
  function NatToString(n: nat): (s: string)
    ensures |s| >= 1
    ensures forall i :: 0 <= i < |s| ==> '0' <= s[i] <= '9'
    ensures n > 0 ==> s[0] != '0'
    ensures ParseDecimal(s) == n
    decreases n
  {
    if n < 10 then [DigitChar(n)]
    else
      var prefix := NatToString(n / 10);
      var s := prefix + [DigitChar(n % 10)];
      assert s[..|s| - 1] == prefix;
      s
  }
}

=== FILE: flatten.dfy ===
/** `lxml_to_dict`: the element tree flattened into nested dicts keyed by
    local names, with duplicate sibling names renamed by a per-parent
    counter. */
module Flatten {
  import opened Wrappers
  import opened Xml
  import opened Metadata
  import Digits
  import Collections

  /** `lxml_to_dict(element)`. A leaf becomes `{name: text}`, except a leaf
      named `values`, which becomes `{}`. An element with children becomes
      `{name: merged}` where `merged` collects the dicts of its non-comment
      children; when only comments were there the result is `{}`. The
      result never has a key other than the element's own local name. */
  function LxmlToDict(e: Element): (r: Result<Dict>)
    ensures r.Ok? ==> r.value.Keys <= {StripNs(e.tag)}
    ensures e.children == [] ==> r.Ok? && (r.value == map[] <==> StripNs(e.tag) == Some("values"))
    ensures e.children == [] && r.value != map[] ==> r.value[StripNs(e.tag)] == TextValue(e.text)
    ensures r.Ok? && e.children != [] && r.value != map[] ==> r.value[StripNs(e.tag)].Dict?
    ensures r.Ok? && (exists i :: 0 <= i < |e.children| && e.children[i].tag.Some?) ==>
      r.value.Keys == {StripNs(e.tag)} && r.value[StripNs(e.tag)].Dict?
    decreases e, 1
  {
    var tag := StripNs(e.tag);
    if e.children == [] then
      if tag == Some("values") then Ok(map[])
      else
        var leaf := map[tag := TextValue(e.text)];
        assert tag in leaf;
        Ok(leaf)
    else
      var st :- MergeChildren(e.children, Start);
      Ok(if st.merged.None? then map[] else map[tag := Dict(st.merged.value)])
  }

  /** The state of the loop over the children: `merged` is what `ret[tag]`
      holds so far (None while `ret` is still empty) and `count` is the
      loop's local `count` dict. */
  datatype MergeState = MergeState(merged: Option<Dict>, count: map<string, nat>)

  /** `ret` and `count` before the first child: both empty. */
  const Start := MergeState(None, map[])

  /** The loop over the children, left to right. Each child's dict is
      computed first (so its exception propagates even for a comment); a
      comment is then skipped. */
  function MergeChildren(cs: seq<Element>, st: MergeState): (r: Result<MergeState>)
    ensures r.Ok? && (st.merged.Some? || exists i :: 0 <= i < |cs| && cs[i].tag.Some?) ==> r.value.merged.Some?
    decreases cs, 0
  {
    if cs == [] then Ok(st)
    else
      var next :- MergeStep(cs[0], st);
      var r := MergeChildren(cs[1..], next);
      assert forall i :: 1 <= i < |cs| ==> cs[i] == cs[1..][i - 1];
      r
  }

  /** One turn of the loop: the child's dict, then the child merged in
      unless it is a comment. A non-comment child leaves `ret[tag]` set. */
  function MergeStep(c: Element, st: MergeState): (r: Result<MergeState>)
    ensures r.Ok? && c.tag.None? ==> r.value == st
    ensures r.Ok? && c.tag.Some? ==> r.value.merged.Some?
    ensures LxmlToDict(c).Err? ==> r == Err(LxmlToDict(c).error)
    ensures r.Err? && LxmlToDict(c).Ok? ==> r == Err(KeyError) && c.tag.Some?
    decreases c, 2
  {
    var sub :- LxmlToDict(c);
    match StripNs(c.tag)
    case None => Ok(st)
    case Some(subtag) => MergeChild(st, subtag, sub)
  }

  /** The loop body for a child named `subtag` whose dict is `sub`. When
      `ret.get(tag, False)` is truthy (the merged dict is non-empty) and
      already has the key `subtag`, the counter of `subtag` is bumped and
      the child's value moves to the key `subtag` + str(counter), raising
      KeyError when the child's dict has no `subtag` entry. The child's
      dict is then merged in, overriding existing keys; when `ret[tag]` is
      falsy it is replaced instead, which comes to the same. */
  function MergeChild(st: MergeState, subtag: string, sub: Dict): (r: Result<MergeState>)
    ensures r.Ok? ==> r.value.merged.Some?
    ensures r.Err? ==> r.error == KeyError && Some(subtag) !in sub
  {
    var present := st.merged.Some? && |st.merged.value| > 0;
    if present && Some(subtag) in st.merged.value then
      var n := if subtag in st.count && st.count[subtag] != 0 then st.count[subtag] + 1 else 1;
      if Some(subtag) !in sub then Err(KeyError)
      else
        var renamed := map[Some(subtag + Digits.NatToString(n)) := sub[Some(subtag)]];
        Ok(MergeState(Some(st.merged.value + renamed), st.count[subtag := n]))
    else
      Ok(MergeState(Some(if present then st.merged.value + sub else sub), st.count))
  }

  // ---------------------------------------------------------------------
  // Comments contribute nothing.
  // ---------------------------------------------------------------------

  /** The children whose tag is a string. */
  function NonComments(cs: seq<Element>): (r: seq<Element>)
    ensures forall x :: x in r <==> x in cs && x.tag.Some?
  {
    if cs == [] then [] else (if cs[0].tag.Some? then [cs[0]] else []) + NonComments(cs[1..])
  }

  /** Dropping the comments among the children, which are leaves, leaves
      the merge unchanged: the counters and the merged dict only ever see
      elements with a string tag. */
  lemma {:induction false} CommentsIgnored(cs: seq<Element>, st: MergeState)
    requires forall i :: 0 <= i < |cs| && cs[i].tag.None? ==> cs[i].children == []
    ensures MergeChildren(cs, st) == MergeChildren(NonComments(cs), st)
    decreases |cs|
  {
    if cs != [] {
      assert forall i :: 1 <= i < |cs| ==> cs[i] == cs[1..][i - 1];
      if cs[0].tag.None? {
        CommentStep(cs, st);
        CommentsIgnored(cs[1..], st);
      } else {
        NonCommentStep(cs, st);
        if MergeStep(cs[0], st).Ok? {
          CommentsIgnored(cs[1..], MergeStep(cs[0], st).value);
        }
      }
    }
  }

  /** A leading comment leaves the state as it is and is dropped. */
  lemma CommentStep(cs: seq<Element>, st: MergeState)
    requires cs != [] && cs[0].tag.None? && cs[0].children == []
    ensures MergeChildren(cs, st) == MergeChildren(cs[1..], st)
    ensures NonComments(cs) == NonComments(cs[1..])
  {
    assert LxmlToDict(cs[0]).Ok?;
  }

  /** A leading element with a string tag is merged first, with or without
      the comments after it. */
  lemma NonCommentStep(cs: seq<Element>, st: MergeState)
    requires cs != [] && cs[0].tag.Some?
    ensures NonComments(cs) == [cs[0]] + NonComments(cs[1..])
    ensures MergeStep(cs[0], st).Err? ==>
      MergeChildren(cs, st) == MergeChildren(NonComments(cs), st) == Err(MergeStep(cs[0], st).error)
    ensures MergeStep(cs[0], st).Ok? ==>
      MergeChildren(cs, st) == MergeChildren(cs[1..], MergeStep(cs[0], st).value) &&
      MergeChildren(NonComments(cs), st) == MergeChildren(NonComments(cs[1..]), MergeStep(cs[0], st).value)
  {
    var ncs := NonComments(cs);
    assert ncs == [cs[0]] + NonComments(cs[1..]);
    assert ncs[0] == cs[0] && ncs[1..] == NonComments(cs[1..]);
  }

  /** An element whose children are all comments flattens to `{}`; one
      with at least one other child flattens as if the comments were not
      there. */
  lemma CommentChildrenIgnored(e: Element)
    requires e.children != []
    requires forall i :: 0 <= i < |e.children| && e.children[i].tag.None? ==> e.children[i].children == []
    ensures NonComments(e.children) == [] ==> LxmlToDict(e) == Ok(map[])
    ensures NonComments(e.children) != [] ==>
      LxmlToDict(e) == LxmlToDict(Element(e.tag, e.text, NonComments(e.children)))
  {
    CommentsIgnored(e.children, Start);
  }

  // ---------------------------------------------------------------------
  // Renaming of duplicate siblings.
  // ---------------------------------------------------------------------

  /** The key of the k-th (0-based) of several siblings named `name`: the
      first keeps the bare name, the next ones get the suffix 1, 2, ... */
  function SiblingKey(name: string, k: nat): Key
  {
    if k == 0 then Some(name) else Some(name + Digits.NatToString(k))
  }

  lemma SiblingKeyInjective(name: string, j: nat, k: nat)
    requires SiblingKey(name, j) == SiblingKey(name, k)
    ensures j == k
  {
    assert j != 0 ==> |SiblingKey(name, j).value| > |name|;
    assert k != 0 ==> |SiblingKey(name, k).value| > |name|;
    if j != 0 && k != 0 {
      var sj := Digits.NatToString(j);
      var sk := Digits.NatToString(k);
      assert (name + sj)[|name|..] == sj && (name + sk)[|name|..] == sk;
    }
  }

  /** The dict built from the values of several same-named siblings, each
      stored under its `SiblingKey`. */
  function Numbered(name: string, vs: seq<Value>): Dict
  {
    if vs == [] then map[]
    else Numbered(name, vs[..|vs| - 1])[SiblingKey(name, |vs| - 1) := vs[|vs| - 1]]
  }

  /** The keys of `Numbered` are the sibling keys of the positions. */
  lemma {:induction false} NumberedKeys(name: string, vs: seq<Value>)
    ensures forall key :: key in Numbered(name, vs) <==> exists k :: 0 <= k < |vs| && key == SiblingKey(name, k)
    decreases |vs|
  {
    if vs != [] {
      NumberedKeys(name, vs[..|vs| - 1]);
    }
  }

  /** Every sibling value is kept under its own key: no value of a
      duplicate is lost. */
  lemma {:induction false} NumberedLookup(name: string, vs: seq<Value>)
    ensures forall k :: 0 <= k < |vs| ==> SiblingKey(name, k) in Numbered(name, vs) && Numbered(name, vs)[SiblingKey(name, k)] == vs[k]
    decreases |vs|
  {
    if vs != [] {
      var init := vs[..|vs| - 1];
      var last := |vs| - 1;
      NumberedLookup(name, init);
      forall k | 0 <= k < last
        ensures SiblingKey(name, k) != SiblingKey(name, last)
      {
        if SiblingKey(name, k) == SiblingKey(name, last) {
          SiblingKeyInjective(name, k, last);
        }
      }
    }
  }

  lemma {:induction false} NumberedSize(name: string, vs: seq<Value>)
    ensures |Numbered(name, vs)| == |vs|
    decreases |vs|
  {
    if vs != [] {
      var init := vs[..|vs| - 1];
      var last := |vs| - 1;
      NumberedSize(name, init);
      NumberedKeys(name, init);
      if SiblingKey(name, last) in Numbered(name, init) {
        var k :| 0 <= k < last && SiblingKey(name, last) == SiblingKey(name, k);
        SiblingKeyInjective(name, k, last);
      }
    }
  }

  /** The loop body on a child named `name` with dict `{name: v}`, when
      `name` is already a key of the merged dict: the value lands under
      `name` + str(n) for the bumped counter n. */
  lemma MergeDuplicate(name: string, v: Value, d: Dict, count: map<string, nat>)
    requires Some(name) in d
    ensures var n := if name in count && count[name] != 0 then count[name] + 1 else 1;
      MergeChild(MergeState(Some(d), count), name, map[Some(name) := v])
        == Ok(MergeState(Some(d[Some(name + Digits.NatToString(n)) := v]), count[name := n]))
  {
    assert |d| > 0 by {
      assert Some(name) in d.Keys;
    }
    var n := if name in count && count[name] != 0 then count[name] + 1 else 1;
    var renamed := map[Some(name + Digits.NatToString(n)) := v];
    assert d + renamed == d[Some(name + Digits.NatToString(n)) := v];
  }

  /** The loop state after the first k of several same-named siblings. */
  function NumberedState(name: string, vs: seq<Value>, k: nat): MergeState
    requires k <= |vs|
  {
    MergeState(if k == 0 then None else Some(Numbered(name, vs[..k])), if k <= 1 then map[] else map[name := k - 1])
  }

  /** One more sibling advances the numbered state. */
  lemma MergeNumberedStep(name: string, vs: seq<Value>, k: nat)
    requires k < |vs|
    ensures MergeChild(NumberedState(name, vs, k), name, map[Some(name) := vs[k]]) == Ok(NumberedState(name, vs, k + 1))
  {
    assert Numbered(name, vs[..k + 1]) == Numbered(name, vs[..k])[SiblingKey(name, k) := vs[k]] by {
      assert vs[..k + 1][..k] == vs[..k];
    }
    if k == 0 {
      assert Numbered(name, vs[..1]) == map[Some(name) := vs[0]];
    } else {
      MergeLaterSibling(name, vs, k);
    }
  }

  /** A sibling after the first lands under its own numbered key, and the
      counter of `name` becomes k. */
  lemma MergeLaterSibling(name: string, vs: seq<Value>, k: nat)
    requires 0 < k < |vs|
    requires Numbered(name, vs[..k + 1]) == Numbered(name, vs[..k])[SiblingKey(name, k) := vs[k]]
    ensures MergeChild(NumberedState(name, vs, k), name, map[Some(name) := vs[k]]) == Ok(NumberedState(name, vs, k + 1))
  {
    var d := Numbered(name, vs[..k]);
    var count: map<string, nat> := if k <= 1 then map[] else map[name := k - 1];
    assert NumberedState(name, vs, k) == MergeState(Some(d), count);
    assert Some(name) in d by {
      NumberedLookup(name, vs[..k]);
      assert SiblingKey(name, 0) in d;
    }
    assert (if name in count && count[name] != 0 then count[name] + 1 else 1) == k;
    MergeDuplicate(name, vs[k], d, count);
    assert SiblingKey(name, k) == Some(name + Digits.NatToString(k));
    Collections.UpdateSingleton(count, name, k);
  }

  lemma {:induction false} MergeNumbered(cs: seq<Element>, name: string, vs: seq<Value>, k: nat)
    requires |cs| == |vs| && k <= |cs|
    requires forall i :: 0 <= i < |cs| ==> StripNs(cs[i].tag) == Some(name) && LxmlToDict(cs[i]) == Ok(map[Some(name) := vs[i]])
    ensures MergeChildren(cs[k..], NumberedState(name, vs, k)) == Ok(NumberedState(name, vs, |vs|))
    decreases |cs| - k
  {
    if k < |cs| {
      var rest := cs[k..];
      assert rest[0] == cs[k] && rest[1..] == cs[k + 1..];
      MergeNumberedStep(name, vs, k);
      MergeNumbered(cs, name, vs, k + 1);
    }
  }

  /** An element whose children all have the local name `name` and each
      flatten to `{name: v}` flattens to `{tag: d}` with d holding the first
      child's value under `name` and the (k+1)-th child's under `name` +
      str(k): the first duplicate gets suffix 1, and since the counter
      belongs to this call, every parent numbers its children afresh. */
  lemma DuplicateSiblingsNumbered(e: Element, name: string, vs: seq<Value>)
    requires |e.children| == |vs| >= 1
    requires forall i :: 0 <= i < |vs| ==>
      StripNs(e.children[i].tag) == Some(name) && LxmlToDict(e.children[i]) == Ok(map[Some(name) := vs[i]])
    ensures LxmlToDict(e) == Ok(map[StripNs(e.tag) := Dict(Numbered(name, vs))])
    ensures Some(name) in Numbered(name, vs) && Numbered(name, vs)[Some(name)] == vs[0]
    ensures forall k :: 1 <= k < |vs| ==>
      var key := Some(name + Digits.NatToString(k));
      key in Numbered(name, vs) && Numbered(name, vs)[key] == vs[k]
    ensures |Numbered(name, vs)| == |vs|
  {
    MergeNumbered(e.children, name, vs, 0);
    assert e.children[0..] == e.children;
    assert vs[..|vs|] == vs;
    assert NumberedState(name, vs, 0) == Start;
    NumberedLookup(name, vs);
    NumberedSize(name, vs);
    assert SiblingKey(name, 0) == Some(name);
    forall k | 1 <= k < |vs|
      ensures var key := Some(name + Digits.NatToString(k));
        key in Numbered(name, vs) && Numbered(name, vs)[key] == vs[k]
    {
      assert SiblingKey(name, k) == Some(name + Digits.NatToString(k));
    }
  }

  /** A duplicate sibling whose own dict is empty (a `values` leaf, or an
      element holding only comments) makes the flattening raise KeyError. */
  lemma EmptyDuplicateRaises(e: Element, name: string, v: Value)
    requires |e.children| == 2
    requires StripNs(e.children[0].tag) == Some(name) && LxmlToDict(e.children[0]) == Ok(map[Some(name) := v])
    requires StripNs(e.children[1].tag) == Some(name) && LxmlToDict(e.children[1]) == Ok(map[])
    ensures LxmlToDict(e) == Err(KeyError)
  {
    var cs := e.children;
    assert cs[1..][0] == cs[1] && cs[1..][1..] == [];
    var first := MergeState(Some(map[Some(name) := v]), map[]);
    assert MergeStep(cs[0], Start) == Ok(first);
    assert MergeChildren(cs, Start) == MergeChildren(cs[1..], first);
    assert MergeChild(first, name, map[]) == Err(KeyError);
    assert MergeStep(cs[1], first) == Err(KeyError);
    assert MergeChildren(cs[1..], first) == Err(KeyError);
  }
}

=== FILE: metadata.dfy ===
/** The values of the flattened metadata, and the Python operators the
    validator applies to them: `key in v` and `v[key]`. */
module Metadata {
  import opened Wrappers
  import Strings

  /** A dict key. The key of a comment leaf is Python's None. */
  type Key = Option<string>

  /** A value of the nested metadata dict: None (a leaf without text), a
      str (a leaf's text), or a nested dict. */
  datatype Value = Null | Str(s: string) | Dict(entries: map<Key, Value>)

  type Dict = map<Key, Value>

  /** The value an element's `.text` becomes. */
  function TextValue(text: Option<string>): (v: Value)
    ensures v == Null <==> text.None?
  {
    match text
    case None => Null
    case Some(s) => Str(s)
  }

  /** `key in v`: membership for a dict, the substring test for a str, and
      a TypeError for None. */
  function In(key: string, v: Value): (r: Result<bool>)
    ensures r.Err? <==> v == Null
    ensures v.Dict? ==> r == Ok(Some(key) in v.entries)
    ensures v.Str? ==> (r == Ok(true) <==> exists i :: 0 <= i <= |v.s| - |key| && key <= v.s[i..])
  {
    match v
    case Null => Err(TypeError)
    case Str(s) => Ok(Strings.IsInfix(key, s))
    case Dict(m) => Ok(Some(key) in m)
  }

  /** `v[key]`: a dict lookup that raises KeyError for a missing key; any
      other value raises TypeError. */
  function Index(v: Value, key: string): (r: Result<Value>)
    ensures r.Ok? <==> v.Dict? && Some(key) in v.entries
    ensures r.Ok? ==> r.value == v.entries[Some(key)]
    ensures r == Err(KeyError) <==> v.Dict? && Some(key) !in v.entries
    ensures r == Err(TypeError) <==> !v.Dict?
  {
    match v
    case Dict(m) => if Some(key) in m then Ok(m[Some(key)]) else Err(KeyError)
    case _ => Err(TypeError)
  }

  /** `v[path[0]][path[1]]...`, raising at the first step that fails. */
  function IndexPath(v: Value, path: seq<string>): (r: Result<Value>)
    ensures r.Ok? <==> Lookup(v, path).Some?
    ensures r.Ok? ==> Lookup(v, path) == Some(r.value)
    ensures r.Err? ==> r.error == KeyError || r.error == TypeError
  {
    if path == [] then Ok(v)
    else
      var w :- Index(v, path[0]);
      IndexPath(w, path[1..])
  }

  /** The value reached by following `path` through nested dicts, if every
      key on the way is present; the reference for the raising lookups. */
  function Lookup(v: Value, path: seq<string>): Option<Value>
  {
    if path == [] then Some(v)
    else if v.Dict? && Some(path[0]) in v.entries then Lookup(v.entries[Some(path[0])], path[1..])
    else None
  }

  /** A chained index succeeds exactly when the path exists through dicts,
      and then returns the value there. When the path is missing it raises
      KeyError if the failing step was a dict without the key, and
      TypeError if it was a leaf. */
  lemma {:induction false} IndexPathFollowsLookup(v: Value, path: seq<string>)
    ensures IndexPath(v, path).Ok? <==> Lookup(v, path).Some?
    ensures IndexPath(v, path).Ok? ==> IndexPath(v, path).value == Lookup(v, path).value
    ensures IndexPath(v, path).Err? ==>
      exists k :: 0 <= k < |path| && Lookup(v, path[..k]).Some? &&
        var w := Lookup(v, path[..k]).value;
        (IndexPath(v, path).error == KeyError <==> w.Dict?) && Some(path[k]) !in DictOrEmpty(w)
    decreases |path|
  {
    if path != [] {
      assert path[..0] == [];
      if v.Dict? && Some(path[0]) in v.entries {
        var w := v.entries[Some(path[0])];
        IndexPathFollowsLookup(w, path[1..]);
        if IndexPath(w, path[1..]).Err? {
          var k :| 0 <= k < |path[1..]| && Lookup(w, path[1..][..k]).Some? &&
            var x := Lookup(w, path[1..][..k]).value;
            (IndexPath(w, path[1..]).error == KeyError <==> x.Dict?) && Some(path[1..][k]) !in DictOrEmpty(x);
          assert path[..k + 1][1..] == path[1..][..k];
          assert Lookup(v, path[..k + 1]) == Lookup(w, path[1..][..k]);
        }
      }
    }
  }

  /** The entries of a dict value; a leaf has none. */
  function DictOrEmpty(v: Value): (m: Dict)
    ensures v.Dict? ==> m == v.entries
    ensures !v.Dict? ==> m == map[]
  {
    if v.Dict? then v.entries else map[]
  }
}

=== FILE: parser.dfy ===
/** `BhpDocumentParser`: a parsed tree turned into the document the rules
    inspect: the CPT and dissipation matrices, the flattened metadata and
    the CPT flag. */
module DocumentParser {
  import opened Wrappers
  import opened Strings
  import opened Whitespace
  import opened Xml
  import opened Metadata
  import Flatten
  import Collections

  /** Fields per row of a cone penetration test's `values` text. */
  const CptFieldCount := 25
  /** Fields per row of a dissipation test's `values` text. */
  const DissipationFieldCount := 5

  type Matrix<C> = seq<seq<C>>

  // ---------------------------------------------------------------------
  // convertDataToMatrix, up to the conversion of the fields to numbers.
  // ---------------------------------------------------------------------

  /** `[line.split(',') for line in lines]`. */
  function SplitFields(lines: seq<string>): (rows: seq<seq<string>>)
    ensures |rows| == |lines|
    ensures forall i :: 0 <= i < |lines| ==> rows[i] == Split(lines[i], ',')
  {
    if lines == [] then [] else [Split(lines[0], ',')] + SplitFields(lines[1..])
  }

  /** `[line for line in lines if len(line) == width]`. */
  function KeepWidth(rows: seq<seq<string>>, width: int): (kept: seq<seq<string>>)
    ensures |kept| <= |rows|
    ensures forall i :: 0 <= i < |kept| ==> |kept[i]| == width && kept[i] in rows
    ensures (forall i :: 0 <= i < |rows| ==> |rows[i]| == width) ==> kept == rows
  {
    if rows == [] then []
    else (if |rows[0]| == width then [rows[0]] else []) + KeepWidth(rows[1..], width)
  }

  lemma {:induction false} KeepWidthAppend(a: seq<seq<string>>, b: seq<seq<string>>, width: int)
    ensures KeepWidth(a + b, width) == KeepWidth(a, width) + KeepWidth(b, width)
    decreases |a|
  {
    if a == [] {
      assert a + b == b;
    } else {
      var s := a + b;
      assert s[0] == a[0] && s[1..] == a[1..] + b;
      KeepWidthAppend(a[1..], b, width);
    }
  }

  lemma {:induction false} SplitFieldsAppend(a: seq<string>, b: seq<string>)
    ensures SplitFields(a + b) == SplitFields(a) + SplitFields(b)
    decreases |a|
  {
    if a == [] {
      assert a + b == b;
    } else {
      var s := a + b;
      assert s[0] == a[0] && s[1..] == a[1..] + b;
      SplitFieldsAppend(a[1..], b);
    }
  }

  /** `convertDataToMatrix(data, width)` before the fields become numbers:
      the text is split into rows at `;` and each row into fields at `,`;
      only rows with exactly `width` fields are kept. Every kept row is the
      field list of one of the `;`-segments; there are at most as many rows
      as segments, and exactly as many when every segment has `width`
      fields. */
  function ConvertDataToMatrix(data: string, width: int): (rows: seq<seq<string>>)
    ensures forall i :: 0 <= i < |rows| ==> |rows[i]| == width
    ensures forall i :: 0 <= i < |rows| ==> |rows[i]| >= 1 && Join(rows[i], ',') in Split(data, ';')
    ensures |rows| <= Count(data, ';') + 1
    ensures (forall i :: 0 <= i < |Split(data, ';')| ==> Count(Split(data, ';')[i], ',') + 1 == width) ==>
      |rows| == Count(data, ';') + 1
  {
    var lines := Split(data, ';');
    var fields := SplitFields(lines);
    var rows := KeepWidth(fields, width);
    assert forall i :: 0 <= i < |rows| ==> |rows[i]| >= 1 && Join(rows[i], ',') in lines by {
      forall i | 0 <= i < |rows|
        ensures |rows[i]| >= 1 && Join(rows[i], ',') in lines
      {
        var j :| 0 <= j < |fields| && fields[j] == rows[i];
        JoinSplit(lines[j], ',');
      }
    }
    rows
  }

  /** A single segment (no `;`) is kept exactly when it has `width` fields,
      that is `width - 1` commas. */
  lemma ConvertSegment(segment: string, width: int)
    requires ';' !in segment
    ensures ConvertDataToMatrix(segment, width) ==
      (if Count(segment, ',') + 1 == width then [Split(segment, ',')] else [])
  {
    SplitWithoutSeparator(segment, ';');
    assert Split(segment, ';')[1..] == [];
  }

  /** The rows of `a;b` are the rows of `a` followed by the rows of `b`: the
      segments are filtered one by one, each on its own field count, and
      their order is kept. */
  lemma ConvertConcat(a: string, b: string, width: int)
    ensures ConvertDataToMatrix(a + ";" + b, width) == ConvertDataToMatrix(a, width) + ConvertDataToMatrix(b, width)
  {
    SplitConcat(a, b, ';');
    SplitFieldsAppend(Split(a, ';'), Split(b, ';'));
    KeepWidthAppend(SplitFields(Split(a, ';')), SplitFields(Split(b, ';')), width);
  }

  // ---------------------------------------------------------------------
  // The conversion of the kept fields, `np.matrix(lines, dtype=np.float)`.
  // `parse` stands for `float()`: None where it raises.
  // ---------------------------------------------------------------------

  function ParseRow<C>(row: seq<string>, parse: string -> Option<C>): (r: Result<seq<C>>)
    ensures r.Ok? <==> forall j :: 0 <= j < |row| ==> parse(row[j]).Some?
    ensures r.Ok? ==> |r.value| == |row| && forall j :: 0 <= j < |row| ==> parse(row[j]) == Some(r.value[j])
    ensures r.Err? ==> r.error == ValueError
  {
    if row == [] then Ok([])
    else
      Collections.TailIndex(row);
      match parse(row[0])
      case None => Err(ValueError)
      case Some(x) =>
        var rest :- ParseRow(row[1..], parse);
        var r := [x] + rest;
        Collections.ConsIndex(x, rest);
        Ok(r)
  }

  /** Every kept field converted; ValueError when one of them is not a
      number. The result has the shape of the input. */
  function ToNumbers<C>(rows: seq<seq<string>>, parse: string -> Option<C>): (r: Result<Matrix<C>>)
    ensures r.Ok? <==> forall i :: 0 <= i < |rows| ==> ParseRow(rows[i], parse).Ok?
    ensures r.Ok? ==> |r.value| == |rows| && forall i :: 0 <= i < |rows| ==> ParseRow(rows[i], parse) == Ok(r.value[i])
    ensures r.Ok? ==> forall i :: 0 <= i < |rows| ==> |r.value[i]| == |rows[i]|
    ensures r.Err? ==> r.error == ValueError
  {
    if rows == [] then Ok([])
    else
      Collections.TailIndex(rows);
      var first :- ParseRow(rows[0], parse);
      var rest :- ToNumbers(rows[1..], parse);
      var r := [first] + rest;
      Collections.ConsIndex(first, rest);
      Ok(r)
  }

  // ---------------------------------------------------------------------
  // generateMatrix.
  // ---------------------------------------------------------------------

  /** The matrix in a test element: its `values` element is looked up in
      the test's subtree and its text parsed with `width` fields per row.
      A missing `values` element, or one without text, raises
      AttributeError (`None.text`, `None.split`). */
  function TestMatrix<C>(test: Element, width: int, parse: string -> Option<C>): (r: Result<Matrix<C>>)
    ensures r.Ok? ==> forall i :: 0 <= i < |r.value| ==> |r.value[i]| == width
    ensures FirstNamed(test, "values").None? ==> r == Err(AttributeError)
    ensures FirstNamed(test, "values").Some? && FirstNamed(test, "values").value.text.None? ==> r == Err(AttributeError)
    ensures r.Ok? ==> (FirstNamed(test, "values").Some? && FirstNamed(test, "values").value.text.Some? &&
      ToNumbers(ConvertDataToMatrix(FirstNamed(test, "values").value.text.value, width), parse) == r)
    ensures r.Err? ==> r.error == AttributeError || r.error == ValueError
  {
    match FirstNamed(test, "values")
    case None => Err(AttributeError)
    case Some(values) =>
      match values.text
      case None => Err(AttributeError)
      case Some(data) => ToNumbers(ConvertDataToMatrix(data, width), parse)
  }

  /** The loop over the dissipation tests: one matrix per test, in order;
      the first test that raises stops the loop. */
  function TestMatrices<C>(tests: seq<Element>, width: int, parse: string -> Option<C>): (r: Result<seq<Matrix<C>>>)
    ensures r.Ok? <==> forall i :: 0 <= i < |tests| ==> TestMatrix(tests[i], width, parse).Ok?
    ensures r.Ok? ==> |r.value| == |tests| && forall i :: 0 <= i < |tests| ==> TestMatrix(tests[i], width, parse) == Ok(r.value[i])
    ensures r.Err? ==> exists i :: 0 <= i < |tests| && TestMatrix(tests[i], width, parse) == Err(r.error)
    ensures r.Err? ==> r.error == AttributeError || r.error == ValueError
  {
    MapAll(tests, test => TestMatrix(test, width, parse))
  }

  /** The two kinds of matrix `generateMatrix` stores. */
  datatype Matrices<C> = Matrices(cpt: Option<Matrix<C>>, dissipation: Option<seq<Matrix<C>>>)

  /** `generateMatrix`. The CPT matrix is present exactly when the tree has
      a `conePenetrationTest` element, and is parsed from the first one
      with 25 fields per row. The dissipation matrices stay None when the
      tree has no `dissipationTest` element; otherwise there is one matrix
      per such element, in search order, each parsed with 5 fields. */
  function GenerateMatrix<C>(root: Element, parse: string -> Option<C>): (r: Result<Matrices<C>>)
    ensures r.Ok? <==>
      (FirstNamed(root, "conePenetrationTest").None? ||
       TestMatrix(FirstNamed(root, "conePenetrationTest").value, CptFieldCount, parse).Ok?) &&
      (GetListOfElementsByTagName(root, "dissipationTest").None? ||
       TestMatrices(GetListOfElementsByTagName(root, "dissipationTest").value, DissipationFieldCount, parse).Ok?)
    ensures FirstNamed(root, "conePenetrationTest").Some? ==>
      var cpt := TestMatrix(FirstNamed(root, "conePenetrationTest").value, CptFieldCount, parse);
      cpt.Err? ==> r == Err(cpt.error)
    ensures r.Err? ==> r.error == AttributeError || r.error == ValueError
    ensures r.Err? && (FirstNamed(root, "conePenetrationTest").None? ||
                       TestMatrix(FirstNamed(root, "conePenetrationTest").value, CptFieldCount, parse).Ok?) ==>
      var tests := GetListOfElementsByTagName(root, "dissipationTest").value;
      exists i :: 0 <= i < |tests| && TestMatrix(tests[i], DissipationFieldCount, parse) == Err(r.error)
    ensures r.Ok? ==> (r.value.cpt.Some? <==> FirstNamed(root, "conePenetrationTest").Some?)
    ensures r.Ok? && r.value.cpt.Some? ==>
      TestMatrix(FirstNamed(root, "conePenetrationTest").value, CptFieldCount, parse) == Ok(r.value.cpt.value)
    ensures r.Ok? ==> (r.value.dissipation.None? <==> GetListOfElementsByTagName(root, "dissipationTest").None?)
    ensures r.Ok? && r.value.dissipation.Some? ==>
      var tests := GetListOfElementsByTagName(root, "dissipationTest").value;
      |r.value.dissipation.value| == |tests| &&
      forall i :: 0 <= i < |tests| ==> TestMatrix(tests[i], DissipationFieldCount, parse) == Ok(r.value.dissipation.value[i])
  {
    var cpt :- match FirstNamed(root, "conePenetrationTest")
      case None => Ok(None)
      case Some(test) =>
        var m :- TestMatrix(test, CptFieldCount, parse);
        Ok(Some(m));
    var dissipation :- match GetListOfElementsByTagName(root, "dissipationTest")
      case None => Ok(None)
      case Some(tests) =>
        var ms :- TestMatrices(tests, DissipationFieldCount, parse);
        Ok(Some(ms));
    Ok(Matrices(cpt, dissipation))
  }

  // ---------------------------------------------------------------------
  // Metadata paths.
  // ---------------------------------------------------------------------

  const RegistrationRequest := "registrationRequest"
  const SourceDocument := "sourceDocument"

  /** The path whose existence makes a document a CPT registration request. */
  const CptPath := [RegistrationRequest, SourceDocument, "CPT"]

  /** The path of the parameter flags of the cone penetrometer survey. */
  const ParametersPath := [RegistrationRequest, SourceDocument, "CPT", "conePenetrometerSurvey", "parameters"]

  /** Every proper prefix of `path` that exists leads to a dict, not a leaf. */
  predicate DictsAlong(v: Value, path: seq<string>)
  {
    forall k :: 1 <= k < |path| && Lookup(v, path[..k]).Some? ==> Lookup(v, path[..k]).value.Dict?
  }

  /** `determineIsCPT`: three nested `in` tests, each indexing only a key
      the test before it found. It never raises KeyError. The flag is set
      whenever the path `registrationRequest.sourceDocument.CPT` exists;
      when it does not, and the values on the way are dicts, the flag stays
      false. (`in` on a str is a substring test and on None a TypeError.) */
  function DetermineIsCpt(metadata: Dict): (r: Result<bool>)
    ensures r != Err(KeyError)
    ensures r.Err? ==> r == Err(TypeError)
    ensures Lookup(Dict(metadata), CptPath).Some? ==> r == Ok(true)
    ensures Lookup(Dict(metadata), CptPath).None? && DictsAlong(Dict(metadata), CptPath) ==> r == Ok(false)
    ensures Lookup(Dict(metadata), CptPath[..1]) == Some(Null) ==> r == Err(TypeError)
    ensures Lookup(Dict(metadata), CptPath[..2]) == Some(Null) ==> r == Err(TypeError)
    ensures var source := Lookup(Dict(metadata), CptPath[..2]);
      source.Some? && source.value.Str? ==> r == Ok(Strings.IsInfix("CPT", source.value.s))
    ensures var request := Lookup(Dict(metadata), CptPath[..1]);
      request.Some? && request.value.Str? ==>
        r == (if Strings.IsInfix(SourceDocument, request.value.s) then Err(TypeError) else Ok(false))
    ensures var source := Lookup(Dict(metadata), CptPath[..2]);
      r == Ok(true) <==>
        Lookup(Dict(metadata), CptPath).Some? ||
        (source.Some? && source.value.Str? && Strings.IsInfix("CPT", source.value.s))
  {
    if Some(RegistrationRequest) !in metadata then Ok(false)
    else
      var request := metadata[Some(RegistrationRequest)];
      assert CptPath[..1] == [RegistrationRequest] && CptPath[..2] == [RegistrationRequest, SourceDocument];
      assert Lookup(Dict(metadata), CptPath[..1]) == Some(request);
      assert Lookup(Dict(metadata), CptPath) == Lookup(request, [SourceDocument, "CPT"]);
      assert Lookup(Dict(metadata), CptPath[..2]) == Lookup(request, [SourceDocument]);
      match In(SourceDocument, request)
      case Err(e) => Err(e)
      case Ok(hasSource) =>
        if !hasSource then Ok(false)
        else
          match Index(request, SourceDocument)
          case Err(e) => Err(e)
          case Ok(source) =>
            assert Lookup(request, [SourceDocument]) == Lookup(source, []) == Some(source);
            assert Lookup(Dict(metadata), CptPath[..2]) == Lookup(request, [SourceDocument]);
            assert Lookup(request, [SourceDocument, "CPT"]) == Lookup(source, ["CPT"]);
            assert Lookup(source, ["CPT"]).Some? <==> source.Dict? && Some("CPT") in source.entries;
            In("CPT", source)
  }

  /** A chain of `v[key]` lookups, each followed by an `is not None` test:
      None as soon as a value on the way is None, the final value when it
      is not None, and the exception of a failing lookup otherwise. */
  function GuardedPath(v: Value, path: seq<string>): (r: Result<Option<Value>>)
    ensures r.Ok? && r.value.Some? ==> Lookup(v, path) == r.value
    ensures Lookup(v, path).Some? && Lookup(v, path).value != Null ==> r == Ok(Lookup(v, path))
    ensures r == Ok(None) <==> exists k :: 1 <= k <= |path| && Lookup(v, path[..k]) == Some(Null)
    ensures r.Err? ==> r.error == KeyError || r.error == TypeError
    ensures r == Err(KeyError) ==> exists k :: (0 <= k < |path| && Lookup(v, path[..k]).Some? &&
      Lookup(v, path[..k]).value.Dict? && Some(path[k]) !in Lookup(v, path[..k]).value.entries)
    decreases |path|
  {
    if path == [] then Ok(Some(v))
    else
      var w :- Index(v, path[0]);
      assert path[..1] == [path[0]];
      assert forall k :: 1 <= k <= |path| ==> path[..k][1..] == path[1..][..k - 1];
      if w == Null then Ok(None)
      else
        var r := GuardedPath(w, path[1..]);
        assert forall k :: 1 <= k <= |path| ==> Lookup(v, path[..k]) == Lookup(w, path[1..][..k - 1]);
        assert r == Ok(None) ==> exists k :: 1 <= k <= |path| && Lookup(v, path[..k]) == Some(Null) by {
          if r == Ok(None) {
            var k :| 1 <= k <= |path[1..]| && Lookup(w, path[1..][..k]) == Some(Null);
            assert Lookup(v, path[..k + 1]) == Some(Null);
          }
        }
        assert (exists k :: 1 <= k <= |path| && Lookup(v, path[..k]) == Some(Null)) ==> r == Ok(None) by {
          if exists k :: 1 <= k <= |path| && Lookup(v, path[..k]) == Some(Null) {
            var k :| 1 <= k <= |path| && Lookup(v, path[..k]) == Some(Null);
            assert Lookup(w, path[1..][..k - 1]) == Some(Null);
            assert k != 1;
          }
        }
        assert r == Err(KeyError) ==> exists k :: 1 <= k < |path| && Lookup(v, path[..k]).Some? &&
          Lookup(v, path[..k]).value.Dict? && Some(path[k]) !in Lookup(v, path[..k]).value.entries by {
          if r == Err(KeyError) {
            var k :| 0 <= k < |path[1..]| && Lookup(w, path[1..][..k]).Some? &&
              Lookup(w, path[1..][..k]).value.Dict? && Some(path[1..][k]) !in Lookup(w, path[1..][..k]).value.entries;
            assert Lookup(v, path[..k + 1]) == Lookup(w, path[1..][..k]);
          }
        }
        r
  }

  /** `getCptParametersMap`: the parameters node of the survey. It is
      None when a value on the way (or the node itself) is None, and the
      lookup of a missing key raises KeyError. */
  function GetCptParametersMap(metadata: Dict): (r: Result<Option<Value>>)
    ensures Lookup(Dict(metadata), ParametersPath) == Some(Null) ==> r == Ok(None)
    ensures Lookup(Dict(metadata), ParametersPath).Some? && Lookup(Dict(metadata), ParametersPath).value != Null ==>
      r == Ok(Lookup(Dict(metadata), ParametersPath))
    ensures r.Ok? && r.value.Some? ==> Lookup(Dict(metadata), ParametersPath) == r.value
    ensures r.Err? ==> r.error == KeyError || r.error == TypeError
    ensures r == Ok(None) <==>
      exists k :: 1 <= k <= |ParametersPath| && Lookup(Dict(metadata), ParametersPath[..k]) == Some(Null)
  {
    assert ParametersPath[..|ParametersPath|] == ParametersPath;
    GuardedPath(Dict(metadata), ParametersPath)
  }

  // ---------------------------------------------------------------------
  // getTag and the document as a whole.
  // ---------------------------------------------------------------------

  /** `getTag(fullTag)`: `prefix:local` with surrounding whitespace
      stripped, resolved through the namespace map to `{uri}local`; None
      for an unknown prefix. Anything but exactly one `:` makes the tuple
      unpacking raise ValueError. */
  function GetTag(nsMap: map<string, string>, fullTag: string): (r: Result<Option<string>>)
    ensures r.Err? <==> Count(StripSpace(fullTag), ':') != 1
    ensures r.Err? ==> r.error == ValueError
  {
    var parts := Split(StripSpace(fullTag), ':');
    if |parts| != 2 then Err(ValueError)
    else if parts[0] in nsMap then Ok(Some(nsMap[parts[0]] + parts[1]))
    else Ok(None)
  }

  /** A qualified name without surrounding whitespace splits into its
      prefix and its local name. */
  lemma QualifiedNameSplits(prefix: string, local: string)
    requires ':' !in prefix && ':' !in local
    requires |prefix| > 0 ==> !IsSpace(prefix[0])
    requires |local| > 0 ==> !IsSpace(local[|local| - 1])
    ensures Split(StripSpace(prefix + ":" + local), ':') == [prefix, local]
  {
    var full := prefix + ":" + local;
    assert !IsSpace(':');
    assert StripSpace(full) == full by {
      assert full[0] == (if |prefix| > 0 then prefix[0] else ':');
      assert full[|full| - 1] == (if |local| > 0 then local[|local| - 1] else ':');
    }
    assert Split(full, ':') == [prefix, local] by {
      assert full == prefix + [':'] + local;
      SplitConcat(prefix, local, ':');
      SplitWithoutSeparator(prefix, ':');
      SplitWithoutSeparator(local, ':');
    }
  }

  /** A qualified name `prefix:local`, with any whitespace around it,
      resolves to the namespace of `prefix` followed by `local`, or to
      None for an unknown prefix. */
  lemma GetTagResolves(nsMap: map<string, string>, ws1: string, prefix: string, local: string, ws2: string)
    requires ':' !in prefix && ':' !in local
    requires |prefix| > 0 ==> !IsSpace(prefix[0])
    requires |local| > 0 ==> !IsSpace(local[|local| - 1])
    requires AllSpace(ws1) && AllSpace(ws2)
    ensures prefix !in nsMap ==> GetTag(nsMap, ws1 + prefix + ":" + local + ws2) == Ok(None)
    ensures prefix in nsMap ==> GetTag(nsMap, ws1 + prefix + ":" + local + ws2) == Ok(Some(nsMap[prefix] + local))
  {
    var core := prefix + ":" + local;
    assert Split(StripSpace(ws1 + prefix + ":" + local + ws2), ':') == [prefix, local] by {
      assert StripSpace(ws1 + prefix + ":" + local + ws2) == StripSpace(core) by {
        assert !IsSpace(':');
        assert core[0] == (if |prefix| > 0 then prefix[0] else ':');
        assert core[|core| - 1] == (if |local| > 0 then local[|local| - 1] else ':');
        assert ws1 + prefix + ":" + local + ws2 == ws1 + core + ws2 by {
          Collections.AppendAssoc(ws1, prefix, ":");
          Collections.AppendAssoc(ws1, prefix + ":", local);
        }
        StripPadded(ws1, core, ws2);
      }
      QualifiedNameSplits(prefix, local);
    }
  }

  /** When the namespace map holds `{uri}` for the prefix (the form the
      parser stores), stripping the namespace off the resolved tag gives
      the local name back: `getTag` and `stripNSFromTagName` are inverse. */
  lemma GetTagThenStripNs(nsMap: map<string, string>, ws1: string, prefix: string, local: string, ws2: string, uri: string)
    requires ':' !in prefix && ':' !in local && '}' !in local && '\n' !in uri
    requires |prefix| > 0 ==> !IsSpace(prefix[0])
    requires |local| > 0 ==> !IsSpace(local[|local| - 1])
    requires AllSpace(ws1) && AllSpace(ws2)
    requires prefix in nsMap && nsMap[prefix] == "{" + uri + "}"
    ensures GetTag(nsMap, ws1 + prefix + ":" + local + ws2).Ok?
    ensures StripNs(GetTag(nsMap, ws1 + prefix + ":" + local + ws2).value) == Some(local)
  {
    GetTagResolves(nsMap, ws1, prefix, local, ws2);
    StripNamespace(uri, local);
  }

  /** The document: the CPT flag, the flattened metadata, and the matrices
      with cells of type C. */
  datatype Document<C> = Document(
    isCpt: bool,
    metadata: Dict,
    cptMatrix: Option<Matrix<C>>,
    dissipationMatrices: Option<seq<Matrix<C>>>)

  /** The constructor: `generateMatrix`, then `lxml_to_dict` of the root,
      then `determineIsCPT`; an exception in any of them is the
      constructor's. A constructed document's CPT rows have 25 cells and
      its dissipation rows 5. */
  function Construct<C>(root: Element, parse: string -> Option<C>): (r: Result<Document<C>>)
    ensures r.Ok? <==>
      GenerateMatrix(root, parse).Ok? && Flatten.LxmlToDict(root).Ok? &&
      DetermineIsCpt(Flatten.LxmlToDict(root).value).Ok?
    ensures GenerateMatrix(root, parse).Err? ==> r == Err(GenerateMatrix(root, parse).error)
    ensures r.Ok? ==> Flatten.LxmlToDict(root) == Ok(r.value.metadata)
    ensures r.Ok? ==> DetermineIsCpt(r.value.metadata) == Ok(r.value.isCpt)
    ensures r.Ok? && r.value.cptMatrix.Some? ==>
      forall i :: 0 <= i < |r.value.cptMatrix.value| ==> |r.value.cptMatrix.value[i]| == CptFieldCount
    ensures r.Ok? && r.value.dissipationMatrices.Some? ==>
      forall j, i :: 0 <= j < |r.value.dissipationMatrices.value| && 0 <= i < |r.value.dissipationMatrices.value[j]| ==>
        |r.value.dissipationMatrices.value[j][i]| == DissipationFieldCount
    ensures r.Ok? ==> (r.value.dissipationMatrices.None? <==> GetListOfElementsByTagName(root, "dissipationTest").None?)
  {
    var matrices :- GenerateMatrix(root, parse);
    var metadata :- Flatten.LxmlToDict(root);
    var isCpt :- DetermineIsCpt(metadata);
    Ok(Document(isCpt, metadata, matrices.cpt, matrices.dissipation))
  }
}

=== FILE: profiler.dfy ===
/** The profiler: thirteen rules that inspect a parsed CPT document and
    report values that are missing, collected by `evaluateRules`. */
module Profiler {
  import opened Wrappers
  import opened Metadata
  import opened DocumentParser
  import Xml
  import Collections
  import Strings

  /** `WAARDEONTBREEKT`: the number a measurement file writes for a value
      that was not measured. */
  const Missing: real := -999999.0

  /** The CPT columns the rules inspect (`CptParams`). */
  datatype CptParam = Depth | CorrectedConeResistance | InclinationResultant | LocalFriction | FrictionRatio

  /** Column of a CPT parameter in the 25-field rows. */
  function CptColumn(p: CptParam): (c: nat)
    ensures c < CptFieldCount
  {
    match p
    case Depth => 1
    case CorrectedConeResistance => 4
    case InclinationResultant => 15
    case LocalFriction => 18
    case FrictionRatio => 24
  }

  /** The key of the survey parameter that says the column was measured. */
  function CptFlag(p: CptParam): string
  {
    match p
    case Depth => "depth"
    case CorrectedConeResistance => "correctedConeResistance"
    case InclinationResultant => "inclinationResultant"
    case LocalFriction => "localFriction"
    case FrictionRatio => "frictionRatio"
  }

  /** The dissipation columns the rules inspect (`DissipationtestParams`). */
  datatype DissipationParam = ConeResistance | PorePressureU1 | PorePressureU2

  /** Column of a dissipation parameter in the 5-field rows. */
  function DissipationColumn(p: DissipationParam): (c: nat)
    ensures c < DissipationFieldCount
  {
    match p
    case ConeResistance => 1
    case PorePressureU1 => 2
    case PorePressureU2 => 3
  }

  /** The cone penetrometer properties whose presence is required. */
  datatype PresenceKey =
    | ConeDiameter
    | ConeSurfaceQuotient
    | ConeToFrictionSleeveDistance
    | FrictionSleeveSurfaceArea
    | FrictionSleeveSurfaceQuotient

  function PresenceName(k: PresenceKey): string
  {
    match k
    case ConeDiameter => "coneDiameter"
    case ConeSurfaceQuotient => "coneSurfaceQuotient"
    case ConeToFrictionSleeveDistance => "coneToFrictionSleeveDistance"
    case FrictionSleeveSurfaceArea => "frictionSleeveSurfaceArea"
    case FrictionSleeveSurfaceQuotient => "frictionSleeveSurfaceQuotient"
  }

  /** Where the presence rules find the cone penetrometer. */
  const ConePenetrometerPath := [RegistrationRequest, SourceDocument, "CPT", "conePenetrometerSurvey", "conePenetrometer"]

  datatype Rule =
    | Presence(key: PresenceKey)
    | CptColumnFilled(cpt: CptParam)
    | DissipationColumnFilled(dissipation: DissipationParam)

  /** The rules in the order `evaluateRules` applies them. */
  const Rules: seq<Rule> := [
    Presence(ConeDiameter),
    Presence(ConeSurfaceQuotient),
    Presence(ConeToFrictionSleeveDistance),
    Presence(FrictionSleeveSurfaceArea),
    Presence(FrictionSleeveSurfaceQuotient),
    CptColumnFilled(Depth),
    CptColumnFilled(CorrectedConeResistance),
    CptColumnFilled(InclinationResultant),
    CptColumnFilled(LocalFriction),
    CptColumnFilled(FrictionRatio),
    DissipationColumnFilled(ConeResistance),
    DissipationColumnFilled(PorePressureU1),
    DissipationColumnFilled(PorePressureU2)
  ]

  /** The position of a rule in `Rules`: every rule is applied, and only
      once. */
  function RuleIndex(rule: Rule): (i: nat)
    ensures i < |Rules| && Rules[i] == rule
    ensures forall j :: 0 <= j < |Rules| && Rules[j] == rule ==> j == i
    ensures rule.Presence? <==> i < 5
    ensures rule.DissipationColumnFilled? <==> 10 <= i
  {
    match rule
    case Presence(key) =>
      (match key
       case ConeDiameter => 0
       case ConeSurfaceQuotient => 1
       case ConeToFrictionSleeveDistance => 2
       case FrictionSleeveSurfaceArea => 3
       case FrictionSleeveSurfaceQuotient => 4)
    case CptColumnFilled(p) =>
      (match p
       case Depth => 5
       case CorrectedConeResistance => 6
       case InclinationResultant => 7
       case LocalFriction => 8
       case FrictionRatio => 9)
    case DissipationColumnFilled(p) =>
      (match p
       case ConeResistance => 10
       case PorePressureU1 => 11
       case PorePressureU2 => 12)
  }

  /** A message, identified by the rule that wrote it and the numbers it
      quotes: the rows of the matrix and how many of them miss the value. */
  datatype Message =
    | NotFilled(rule: Rule)
    | MissingValues(rule: Rule, rows: nat, missing: nat)

  /** What a rule returns when it reports: one message, or a list of them
      (one per dissipation test). */
  datatype Report = Single(message: Message) | Several(messages: seq<Message>)

  /** An entry of the error list: a report, or the exception a rule raised. */
  datatype ErrorEntry = Reported(report: Report) | Raised(error: PyError)

  // ---------------------------------------------------------------------
  // Missing values in a matrix column.
  // ---------------------------------------------------------------------

  /** `np.where(m[:, col] == Missing)[0]`: the indices of the rows whose
      cell in column `col` is the missing-value marker, in increasing
      order. */
  function MissingRows(m: Matrix<real>, col: nat): (rows: seq<nat>)
    requires forall i :: 0 <= i < |m| ==> col < |m[i]|
    ensures forall k :: 0 <= k < |rows| ==> rows[k] < |m|
    ensures forall k, l :: 0 <= k < l < |rows| ==> rows[k] < rows[l]
    ensures forall i :: 0 <= i < |m| ==> (i in rows <==> m[i][col] == Missing)
    ensures |rows| <= |m|
  {
    if m == [] then []
    else
      var last := |m| - 1;
      var front := MissingRows(m[..last], col);
      assert forall i :: 0 <= i < last ==> m[..last][i] == m[i];
      var rows := front + (if m[last][col] == Missing then [last] else []);
      assert |front| <= last;
      rows
  }

  /** The column of a numpy matrix: an IndexError when the column is out of
      range, which is the case for every column of the 1x0 matrix an empty
      `values` text gives. Otherwise the rows missing the value. */
  function ColumnMissing(m: Matrix<real>, col: nat): (r: Result<seq<nat>>)
    ensures r.Err? <==> |m| == 0 || exists i :: 0 <= i < |m| && |m[i]| <= col
    ensures r.Err? ==> r.error == IndexError
    ensures r.Ok? ==> r.value == MissingRows(m, col)
  {
    if |m| == 0 || exists i :: 0 <= i < |m| && |m[i]| <= col then Err(IndexError)
    else Ok(MissingRows(m, col))
  }

  /** A non-empty matrix whose rows all have `width` fields has every column
      below `width`. */
  lemma ColumnOfWellFormedMatrix(m: Matrix<real>, col: nat, width: nat)
    requires |m| > 0 && col < width
    requires forall i :: 0 <= i < |m| ==> |m[i]| == width
    ensures ColumnMissing(m, col).Ok?
  {
  }

  // ---------------------------------------------------------------------
  // The rules.
  // ---------------------------------------------------------------------

  /** `cptParametersFilled(dic, param)`: `param in dic and dic[param] ==
      'ja'`. For a dict, true exactly when the flag is present and is the
      text `ja`. For None it raises TypeError, and so it does for a str that
      contains the flag name (the substring test passes, then the str is
      indexed by a str). */
  function CptParametersFilled(dic: Option<Value>, param: string): (r: Result<bool>)
    ensures dic.Some? && dic.value.Dict? ==>
      r == Ok(Some(param) in dic.value.entries && dic.value.entries[Some(param)] == Str("ja"))
    ensures dic.None? || dic == Some(Null) ==> r == Err(TypeError)
    ensures dic.Some? && dic.value.Str? ==> (r.Err? <==> In(param, dic.value) == Ok(true))
    ensures r.Err? ==> r.error == TypeError
    ensures r == Ok(true) ==> dic.Some? && Lookup(dic.value, [param]) == Some(Str("ja"))
  {
    match dic
    case None => Err(TypeError)
    case Some(v) =>
      var present :- In(param, v);
      if !present then Ok(false)
      else
        var flag :- Index(v, param);
        Ok(flag == Str("ja"))
  }

  /** One of the five presence rules: the cone penetrometer is looked up
      along its full path (a missing key raising KeyError, a leaf on the
      way TypeError); the rule reports when the property is not `in` it.
      An empty `<conePenetrometer/>` flattens to None, and `in` on it
      raises TypeError; on a str `in` is the substring test. */
  function PresenceRule(doc: Document<real>, key: PresenceKey): (r: Result<Option<Report>>)
    ensures r.Ok? ==> Lookup(Dict(doc.metadata), ConePenetrometerPath).Some?
    ensures Lookup(Dict(doc.metadata), ConePenetrometerPath).None? ==> r.Err?
    ensures Lookup(Dict(doc.metadata), ConePenetrometerPath).Some? && Lookup(Dict(doc.metadata), ConePenetrometerPath).value.Dict? ==>
      r == (if Some(PresenceName(key)) in Lookup(Dict(doc.metadata), ConePenetrometerPath).value.entries
            then Ok(None) else Ok(Some(Single(NotFilled(Presence(key))))))
    ensures Lookup(Dict(doc.metadata), ConePenetrometerPath) == Some(Null) ==> r == Err(TypeError)
    ensures var cone := Lookup(Dict(doc.metadata), ConePenetrometerPath);
      cone.Some? && cone.value.Str? ==>
        r == (if Strings.IsInfix(PresenceName(key), cone.value.s) then Ok(None) else Ok(Some(Single(NotFilled(Presence(key))))))
    ensures r.Err? ==> r.error == KeyError || r.error == TypeError
    ensures r.Ok? && r.value.Some? ==> r.value.value == Single(NotFilled(Presence(key)))
  {
    IndexPathFollowsLookup(Dict(doc.metadata), ConePenetrometerPath);
    var penetrometer :- IndexPath(Dict(doc.metadata), ConePenetrometerPath);
    var present :- In(PresenceName(key), penetrometer);
    if present then Ok(None) else Ok(Some(Single(NotFilled(Presence(key)))))
  }

  /** One of the five CPT column rules: when the survey says the column
      was measured (flag `ja`), the rule reports how many rows of the CPT
      matrix carry the missing-value marker in that column, if any. A
      document without CPT matrix raises TypeError (`None[:, col]`) once
      the flag is set; a matrix without the column raises IndexError. */
  function CptColumnRule(doc: Document<real>, p: CptParam): (r: Result<Option<Report>>)
    ensures GetCptParametersMap(doc.metadata).Err? ==> r == Err(GetCptParametersMap(doc.metadata).error)
    ensures GetCptParametersMap(doc.metadata).Ok? ==>
      var filled := CptParametersFilled(GetCptParametersMap(doc.metadata).value, CptFlag(p));
      (filled.Err? ==> r == Err(filled.error)) &&
      (filled == Ok(false) ==> r == Ok(None)) &&
      (filled == Ok(true) && doc.cptMatrix.None? ==> r == Err(TypeError)) &&
      (filled == Ok(true) && doc.cptMatrix.Some? ==>
        var m := doc.cptMatrix.value;
        var col := CptColumn(p);
        (ColumnMissing(m, col).Err? ==> r == Err(IndexError)) &&
        (ColumnMissing(m, col).Ok? ==>
          r == (if MissingRows(m, col) == [] then Ok(None)
                else Ok(Some(Single(MissingValues(CptColumnFilled(p), |m|, |MissingRows(m, col)|)))))))
  {
    var parameters :- GetCptParametersMap(doc.metadata);
    var filled :- CptParametersFilled(parameters, CptFlag(p));
    if !filled then Ok(None)
    else
      match doc.cptMatrix
      case None => Err(TypeError)
      case Some(m) =>
        var rows :- ColumnMissing(m, CptColumn(p));
        if |rows| != 0 then Ok(Some(Single(MissingValues(CptColumnFilled(p), |m|, |rows|))))
        else Ok(None)
  }

  /** The rows of `m` whose cell in column `col` is the missing-value
      marker, as a set. */
  function MarkedRows(m: Matrix<real>, col: nat): set<nat>
  {
    set i: nat | i < |m| && col < |m[i]| && m[i][col] == Missing
  }

  /** `np.where(...)[0].size` is the number of marked rows. */
  lemma {:induction false} MissingRowsCount(m: Matrix<real>, col: nat)
    requires forall i :: 0 <= i < |m| ==> col < |m[i]|
    ensures |MissingRows(m, col)| == |MarkedRows(m, col)|
    decreases |m|
  {
    if m != [] {
      var last := |m| - 1;
      var init := m[..last];
      assert forall i :: 0 <= i < last ==> init[i] == m[i];
      MissingRowsCount(init, col);
      var added := m[last][col] == Missing;
      assert MissingRows(m, col) == MissingRows(init, col) + (if added then [last] else []);
      MarkedRowsSnoc(m, col);
    }
  }

  /** The marked rows of a matrix are those of all but its last row, and
      the last row when it is marked. */
  lemma MarkedRowsSnoc(m: Matrix<real>, col: nat)
    requires m != [] && col < |m[|m| - 1]|
    ensures var last := |m| - 1;
      |MarkedRows(m, col)| == |MarkedRows(m[..last], col)| + (if m[last][col] == Missing then 1 else 0)
  {
    var last := |m| - 1;
    var init := m[..last];
    var front := MarkedRows(init, col);
    assert MarkedRows(m, col) == front + (if m[last][col] == Missing then {last} else {}) by {
      forall i: nat | i < last
        ensures (i in MarkedRows(m, col)) == (i in front)
      {
        assert init[i] == m[i];
      }
    }
    assert last !in front;
  }

  /** What a CPT column rule reports, told by the marked rows alone: with
      the flag `ja` and a matrix that has the column, a message quoting
      the number of rows and the number of marked rows when some row is
      marked, and nothing otherwise. */
  lemma CptColumnRuleReports(doc: Document<real>, p: CptParam)
    requires GetCptParametersMap(doc.metadata).Ok?
    requires CptParametersFilled(GetCptParametersMap(doc.metadata).value, CptFlag(p)) == Ok(true)
    requires doc.cptMatrix.Some? && |doc.cptMatrix.value| > 0
    requires forall i :: 0 <= i < |doc.cptMatrix.value| ==> CptColumn(p) < |doc.cptMatrix.value[i]|
    ensures var m := doc.cptMatrix.value;
      var marked := MarkedRows(m, CptColumn(p));
      CptColumnRule(doc, p) ==
        (if marked == {} then Ok(None) else Ok(Some(Single(MissingValues(CptColumnFilled(p), |m|, |marked|)))))
  {
    MissingRowsCount(doc.cptMatrix.value, CptColumn(p));
  }

  /** The loop of a dissipation rule: one message per matrix with missing
      values in the column, appended in matrix order; a matrix without
      that column raises. */
  function DissipationMessages(ms: seq<Matrix<real>>, p: DissipationParam): (r: Result<seq<Message>>)
    ensures r.Ok? <==> forall j :: 0 <= j < |ms| ==> ColumnMissing(ms[j], DissipationColumn(p)).Ok?
    ensures r.Err? ==> r.error == IndexError
    ensures r.Ok? ==> |r.value| <= |ms|
    ensures r.Ok? ==> forall k :: 0 <= k < |r.value| ==>
      r.value[k].MissingValues? && r.value[k].rule == DissipationColumnFilled(p) && 1 <= r.value[k].missing <= r.value[k].rows
  {
    if ms == [] then Ok([])
    else
      var last := |ms| - 1;
      assert forall j :: 0 <= j < last ==> ms[..last][j] == ms[j];
      var front :- DissipationMessages(ms[..last], p);
      var rows :- ColumnMissing(ms[last], DissipationColumn(p));
      if |rows| != 0 then Ok(front + [MissingValues(DissipationColumnFilled(p), |ms[last]|, |rows|)])
      else Ok(front)
  }

  /** No message exactly when no matrix has a marked row. */
  lemma {:induction false} DissipationSilent(ms: seq<Matrix<real>>, p: DissipationParam)
    requires DissipationMessages(ms, p).Ok?
    ensures forall j :: 0 <= j < |ms| ==> ColumnMissing(ms[j], DissipationColumn(p)).Ok?
    ensures DissipationMessages(ms, p).value == [] <==>
      forall j :: 0 <= j < |ms| ==> MissingRows(ms[j], DissipationColumn(p)) == []
    decreases |ms|
  {
    if ms != [] {
      var last := |ms| - 1;
      assert forall j :: 0 <= j < last ==> ms[..last][j] == ms[j];
      DissipationSilent(ms[..last], p);
    }
  }

  /** The indices of the matrices that have a marked row in column `col`,
      in increasing order. */
  function MarkedMatrices(ms: seq<Matrix<real>>, col: nat): (js: seq<nat>)
    ensures forall k :: 0 <= k < |js| ==> js[k] < |ms|
    ensures forall k, l :: 0 <= k < l < |js| ==> js[k] < js[l]
    ensures forall j :: 0 <= j < |ms| ==> (j in js <==> MarkedRows(ms[j], col) != {})
  {
    if ms == [] then []
    else
      var last := |ms| - 1;
      assert forall j :: 0 <= j < last ==> ms[..last][j] == ms[j];
      MarkedMatrices(ms[..last], col) + (if MarkedRows(ms[last], col) != {} then [last] else [])
  }

  /** The messages a dissipation rule should collect: for each matrix with
      a marked row, in matrix order, its number of rows and its number of
      marked rows. */
  function ExpectedMessages(ms: seq<Matrix<real>>, p: DissipationParam): (messages: seq<Message>)
    ensures |messages| == |MarkedMatrices(ms, DissipationColumn(p))|
  {
    var col := DissipationColumn(p);
    var js := MarkedMatrices(ms, col);
    seq(|js|, k requires 0 <= k < |js| => MissingValues(DissipationColumnFilled(p), |ms[js[k]]|, |MarkedRows(ms[js[k]], col)|))
  }

  /** The loop collects exactly the expected messages. */
  lemma {:induction false} DissipationMessagesExpected(ms: seq<Matrix<real>>, p: DissipationParam)
    requires DissipationMessages(ms, p).Ok?
    ensures DissipationMessages(ms, p).value == ExpectedMessages(ms, p)
    decreases |ms|
  {
    if ms != [] {
      var col := DissipationColumn(p);
      var last := |ms| - 1;
      var init := ms[..last];
      assert forall j :: 0 <= j < last ==> init[j] == ms[j];
      var front := DissipationMessages(init, p);
      var rows := ColumnMissing(ms[last], col);
      assert front.Ok? && rows.Ok?;
      assert DissipationMessages(ms, p).value == front.value +
        (if |rows.value| != 0 then [MissingValues(DissipationColumnFilled(p), |ms[last]|, |rows.value|)] else []);
      DissipationMessagesExpected(init, p);
      MissingRowsCount(ms[last], col);
      ExpectedMessagesSnoc(ms, p);
    }
  }

  /** One more matrix adds its message, if it has a marked row, at the end
      of the expected messages. */
  lemma ExpectedMessagesSnoc(ms: seq<Matrix<real>>, p: DissipationParam)
    requires ms != []
    ensures var last := |ms| - 1;
      var marked := MarkedRows(ms[last], DissipationColumn(p));
      ExpectedMessages(ms, p) == ExpectedMessages(ms[..last], p) +
        (if marked != {} then [MissingValues(DissipationColumnFilled(p), |ms[last]|, |marked|)] else [])
  {
    var col := DissipationColumn(p);
    var last := |ms| - 1;
    var init := ms[..last];
    var marked := MarkedRows(ms[last], col);
    var js := MarkedMatrices(ms, col);
    var front := MarkedMatrices(init, col);
    assert js == front + (if marked != {} then [last] else []);
    var a := ExpectedMessages(ms, p);
    var b := ExpectedMessages(init, p) +
      (if marked != {} then [MissingValues(DissipationColumnFilled(p), |ms[last]|, |marked|)] else []);
    assert |a| == |b|;
    forall k | 0 <= k < |a|
      ensures a[k] == b[k]
    {
      if k < |front| {
        assert js[k] == front[k];
        assert init[front[k]] == ms[front[k]];
      }
    }
  }

  /** One of the three dissipation rules: nothing to report for a document
      without dissipation tests; otherwise the list of messages, or nothing
      when that list is empty. */
  function DissipationRule(doc: Document<real>, p: DissipationParam): (r: Result<Option<Report>>)
    ensures doc.dissipationMatrices.None? ==> r == Ok(None)
    ensures r.Err? ==> r == Err(IndexError)
    ensures r.Ok? && r.value.Some? ==> (r.value.value.Several? && r.value.value.messages != [] &&
      doc.dissipationMatrices.Some? && |r.value.value.messages| <= |doc.dissipationMatrices.value|)
    ensures doc.dissipationMatrices.Some? ==>
      (r.Ok? <==> forall j :: 0 <= j < |doc.dissipationMatrices.value| ==>
        ColumnMissing(doc.dissipationMatrices.value[j], DissipationColumn(p)).Ok?)
    ensures r == Ok(None) && doc.dissipationMatrices.Some? ==>
      forall j :: 0 <= j < |doc.dissipationMatrices.value| ==> MissingRows(doc.dissipationMatrices.value[j], DissipationColumn(p)) == []
  {
    match doc.dissipationMatrices
    case None => Ok(None)
    case Some(ms) =>
      var messages :- DissipationMessages(ms, p);
      DissipationSilent(ms, p);
      if |messages| == 0 then Ok(None) else Ok(Some(Several(messages)))
  }

  /** What a dissipation rule reports, told by the marked rows alone:
      nothing exactly when no matrix has a marked row, and otherwise one
      message per such matrix, in matrix order. */
  lemma DissipationRuleReports(doc: Document<real>, p: DissipationParam)
    requires doc.dissipationMatrices.Some?
    requires forall j :: 0 <= j < |doc.dissipationMatrices.value| ==>
      ColumnMissing(doc.dissipationMatrices.value[j], DissipationColumn(p)).Ok?
    ensures var ms := doc.dissipationMatrices.value;
      DissipationRule(doc, p) ==
        (if MarkedMatrices(ms, DissipationColumn(p)) == [] then Ok(None) else Ok(Some(Several(ExpectedMessages(ms, p)))))
  {
    DissipationMessagesExpected(doc.dissipationMatrices.value, p);
  }

  /** The rule function a rule stands for. */
  function RunRule(doc: Document<real>, rule: Rule): (r: Result<Option<Report>>)
    ensures r == Ok(None) || r.Err? || r.value.value.Single? == !rule.DissipationColumnFilled?
  {
    match rule
    case Presence(k) => PresenceRule(doc, k)
    case CptColumnFilled(p) => CptColumnRule(doc, p)
    case DissipationColumnFilled(p) => DissipationRule(doc, p)
  }

  // ---------------------------------------------------------------------
  // Collecting the results.
  // ---------------------------------------------------------------------

  /** `appendToErrorList`: a rule that reports adds its report, a rule that
      raises adds the exception, a rule that returns None adds nothing. The
      entries already in the list stay as they are. */
  function AppendToErrorList(errors: seq<ErrorEntry>, result: Result<Option<Report>>): (r: seq<ErrorEntry>)
    ensures |errors| <= |r| <= |errors| + 1 && r[..|errors|] == errors
    ensures |r| == |errors| <==> result == Ok(None)
    ensures |r| > |errors| && result.Err? ==> r[|errors|] == Raised(result.error)
    ensures |r| > |errors| && result.Ok? ==> r[|errors|] == Reported(result.value.value)
  {
    match result
    case Err(e) => errors + [Raised(e)]
    case Ok(None) => errors
    case Ok(Some(report)) => errors + [Reported(report)]
  }

  /** The error list after applying `rules` one after the other. It has at
      most one entry per rule, and is empty exactly when no rule reports or
      raises. */
  function ErrorList(doc: Document<real>, rules: seq<Rule>): (r: seq<ErrorEntry>)
    ensures |r| <= |rules|
    ensures r == [] <==> forall i :: 0 <= i < |rules| ==> RunRule(doc, rules[i]) == Ok(None)
  {
    if rules == [] then []
    else
      var front := rules[..|rules| - 1];
      var last := rules[|rules| - 1];
      assert forall i :: 0 <= i < |rules| ==> if i < |front| then rules[i] == front[i] else rules[i] == last;
      AppendToErrorList(ErrorList(doc, front), RunRule(doc, last))
  }

  /** The list for two runs of rules is the list of the first run followed
      by the list of the second: each rule's entry depends on that rule
      alone, and an exception does not stop the rules after it. */
  lemma {:induction false} ErrorListAppend(doc: Document<real>, a: seq<Rule>, b: seq<Rule>)
    ensures ErrorList(doc, a + b) == ErrorList(doc, a) + ErrorList(doc, b)
    decreases |b|
  {
    if b == [] {
      assert a + b == a;
    } else {
      var last := |b| - 1;
      var front := b[..last];
      var res := RunRule(doc, b[last]);
      assert ErrorList(doc, a + b) == AppendToErrorList(ErrorList(doc, a + front), res) by {
        assert (a + b)[..|a + b| - 1] == a + front;
        assert (a + b)[|a + b| - 1] == b[last];
      }
      assert ErrorList(doc, b) == AppendToErrorList(ErrorList(doc, front), res);
      ErrorListAppend(doc, a, front);
      AppendToErrorListShift(ErrorList(doc, a), ErrorList(doc, front), res);
    }
  }

  /** What `appendToErrorList` adds does not depend on the entries already
      in the list. */
  lemma AppendToErrorListShift(xs: seq<ErrorEntry>, ys: seq<ErrorEntry>, result: Result<Option<Report>>)
    ensures AppendToErrorList(xs + ys, result) == xs + AppendToErrorList(ys, result)
  {
    match result
    case Err(e) =>
      Collections.AppendAssoc(xs, ys, [Raised(e)]);
    case Ok(None) =>
    case Ok(Some(report)) =>
      Collections.AppendAssoc(xs, ys, [Reported(report)]);
  }

  /** The entries each rule would make on its own, joined in rule order:
      the reference for the list `appendToErrorList` builds up. */
  function Entries(doc: Document<real>, rules: seq<Rule>): seq<ErrorEntry>
  {
    if rules == [] then [] else AppendToErrorList([], RunRule(doc, rules[0])) + Entries(doc, rules[1..])
  }

  /** The list is the entries each rule would make on its own, joined in
      rule order: an entry comes from exactly one rule, and entries keep
      the order of their rules. */
  lemma {:induction false} ErrorListEntries(doc: Document<real>, rules: seq<Rule>)
    ensures ErrorList(doc, rules) == Entries(doc, rules)
    decreases |rules|
  {
    if rules != [] {
      var rest := rules[1..];
      assert ErrorList(doc, rules) == ErrorList(doc, [rules[0]]) + ErrorList(doc, rest) by {
        assert [rules[0]] + rest == rules;
        ErrorListAppend(doc, [rules[0]], rest);
      }
      assert ErrorList(doc, [rules[0]]) == AppendToErrorList([], RunRule(doc, rules[0])) by {
        assert [rules[0]][..0] == [];
      }
      ErrorListEntries(doc, rest);
    }
  }

  /** The loop of `evaluateRules` over a list of rules: each rule is run
      and `appendToErrorList` collects its result or exception. */
  method CollectErrors(doc: Document<real>, rules: seq<Rule>) returns (errors: seq<ErrorEntry>)
    ensures errors == ErrorList(doc, rules)
  {
    errors := [];
    for i := 0 to |rules|
      invariant errors == ErrorList(doc, rules[..i])
    {
      assert rules[..i + 1][..i] == rules[..i];
      errors := AppendToErrorList(errors, RunRule(doc, rules[i]));
    }
    assert rules[..|rules|] == rules;
  }

  /** `evaluateRules`: every rule applied in order, each result or
      exception collected. */
  method EvaluateRules(doc: Document<real>) returns (errors: seq<ErrorEntry>)
    ensures errors == ErrorList(doc, Rules)
    ensures |errors| <= |Rules|
    ensures errors == [] <==> forall i :: 0 <= i < |Rules| ==> RunRule(doc, Rules[i]) == Ok(None)
  {
    errors := CollectErrors(doc, Rules);
  }

  /** A document whose metadata is not a registration request (no
      `registrationRequest` key) and which has no dissipation tests gets
      ten KeyErrors: one from each presence rule and one from each CPT
      column rule. */
  lemma NotARegistrationRequest(doc: Document<real>)
    requires Some(RegistrationRequest) !in doc.metadata
    requires doc.dissipationMatrices.None?
    ensures ErrorList(doc, Rules) == seq(10, _ => Raised(KeyError))
  {
    assert Lookup(Dict(doc.metadata), ConePenetrometerPath).None?;
    assert GetCptParametersMap(doc.metadata) == Err(KeyError);
    assert forall i :: 0 <= i < 10 ==> RunRule(doc, Rules[i]) == Err(KeyError);
    assert forall i :: 10 <= i < 13 ==> RunRule(doc, Rules[i]) == Ok(None);
    KeyErrors(doc, Rules[..10]);
    assert ErrorList(doc, Rules[10..]) == [];
    ErrorListAppend(doc, Rules[..10], Rules[10..]);
    assert Rules[..10] + Rules[10..] == Rules;
  }

  lemma {:induction false} KeyErrors(doc: Document<real>, rules: seq<Rule>)
    requires forall i :: 0 <= i < |rules| ==> RunRule(doc, rules[i]) == Err(KeyError)
    ensures ErrorList(doc, rules) == seq(|rules|, _ => Raised(KeyError))
    decreases |rules|
  {
    if rules != [] {
      KeyErrors(doc, rules[..|rules| - 1]);
    }
  }

  /** A CPT column rule raises IndexError only on an empty matrix (the 1x0
      matrix of an empty `values` text) when every row has 25 fields. */
  lemma CptColumnRuleIndexError(doc: Document<real>, p: CptParam)
    requires doc.cptMatrix.Some?
    requires forall i :: 0 <= i < |doc.cptMatrix.value| ==> |doc.cptMatrix.value[i]| == CptFieldCount
    ensures CptColumnRule(doc, p) == Err(IndexError) ==> |doc.cptMatrix.value| == 0
  {
    if |doc.cptMatrix.value| > 0 {
      ColumnOfWellFormedMatrix(doc.cptMatrix.value, CptColumn(p), CptFieldCount);
    }
  }

  /** On a constructed document with a non-empty CPT matrix, a CPT column
      rule never raises IndexError. */
  lemma ConstructedCptColumns(root: Xml.Element, parse: string -> Option<real>, p: CptParam)
    ensures var r := Construct(root, parse);
      r.Ok? && r.value.cptMatrix.Some? && |r.value.cptMatrix.value| > 0 ==>
        CptColumnRule(r.value, p) != Err(IndexError)
  {
    var r := Construct(root, parse);
    if r.Ok? && r.value.cptMatrix.Some? && |r.value.cptMatrix.value| > 0 {
      CptColumnRuleIndexError(r.value, p);
    }
  }
}

=== FILE: siblings.dfy ===
/** The renaming of duplicate siblings by `lxml_to_dict`, for siblings
    with any mix of names: the k-th sibling of a given name (counting from
    0) lands under that name followed by str(k), and the first one under
    the bare name, whatever other names come in between. */
module Siblings {
  import opened Wrappers
  import opened Xml
  import opened Metadata
  import opened Flatten
  import Digits
  import Collections

  /** How often `x` occurs in `names`. */
  function Occurrences(names: seq<string>, x: string): nat
  {
    if names == [] then 0
    else Occurrences(names[..|names| - 1], x) + (if names[|names| - 1] == x then 1 else 0)
  }

  /** The key of the i-th sibling: its name, numbered by the number of
      siblings before it that have the same name. */
  function RenamedKey(names: seq<string>, i: nat): Key
    requires i < |names|
  {
    SiblingKey(names[i], Occurrences(names[..i], names[i]))
  }

  /** The keys of the siblings, in order. */
  function RenamedKeys(names: seq<string>): (keys: seq<Key>)
    ensures |keys| == |names|
    ensures forall i :: 0 <= i < |names| ==> keys[i] == RenamedKey(names, i)
  {
    seq(|names|, i requires 0 <= i < |names| => RenamedKey(names, i))
  }

  /** The dict built from siblings named `names` with values `vs`, each
      value stored under its `RenamedKey`. */
  function Renamed(names: seq<string>, vs: seq<Value>): Dict
    requires |names| == |vs|
  {
    Collections.Store(RenamedKeys(names), vs)
  }

  /** `a` is `b` followed by one or more decimal digits. */
  predicate DigitSuffixed(a: string, b: string)
  {
    |a| > |b| && a[..|b|] == b && forall i :: |b| <= i < |a| ==> '0' <= a[i] <= '9'
  }

  /** No sibling's name is another sibling's name followed by digits: the
      condition under which a numbered key never meets a name of its own. */
  predicate NoDigitSuffixed(names: seq<string>)
  {
    forall i, j {:trigger DigitSuffixed(names[i], names[j])} ::
      0 <= i < |names| && 0 <= j < |names| ==> !DigitSuffixed(names[i], names[j])
  }

  // ---------------------------------------------------------------------
  // Keys.
  // ---------------------------------------------------------------------

  /** Two sibling keys meet only for the same name and the same number,
      unless one name is the other followed by digits. */
  lemma SiblingKeysMeet(a: string, p: nat, b: string, q: nat)
    requires !DigitSuffixed(a, b) && !DigitSuffixed(b, a)
    requires SiblingKey(a, p) == SiblingKey(b, q)
    ensures a == b && p == q
  {
    if p != 0 && q != 0 {
      DigitsMeet(a, Digits.NatToString(p), b, Digits.NatToString(q));
    } else {
      BareKeyMeets(a, p, b, q);
    }
    SiblingKeyInjective(a, p, q);
  }

  /** A bare name meets another sibling key only as that same bare name. */
  lemma BareKeyMeets(a: string, p: nat, b: string, q: nat)
    requires !DigitSuffixed(a, b) && !DigitSuffixed(b, a)
    requires p == 0 || q == 0
    requires SiblingKey(a, p) == SiblingKey(b, q)
    ensures a == b
  {
    if p != 0 {
      AppendDigits(a, Digits.NatToString(p));
    }
    if q != 0 {
      AppendDigits(b, Digits.NatToString(q));
    }
  }

  /** A name followed by a non-empty digit string is that name followed by
      digits. */
  lemma AppendDigits(b: string, s: string)
    requires |s| >= 1
    requires forall i :: 0 <= i < |s| ==> '0' <= s[i] <= '9'
    ensures DigitSuffixed(b + s, b)
  {
    assert (b + s)[..|b|] == b;
  }

  /** Two names each followed by a non-empty digit string give the same
      text only for the same name, unless one name is the other followed
      by digits. */
  lemma DigitsMeet(a: string, sp: string, b: string, sq: string)
    requires !DigitSuffixed(a, b) && !DigitSuffixed(b, a)
    requires |sp| >= 1 && |sq| >= 1
    requires forall i :: 0 <= i < |sp| ==> '0' <= sp[i] <= '9'
    requires forall i :: 0 <= i < |sq| ==> '0' <= sq[i] <= '9'
    requires a + sp == b + sq
    ensures a == b
  {
    if |a| <= |b| {
      DigitPrefix(a, sp, b, sq);
    } else {
      DigitPrefix(b, sq, a, sp);
    }
  }

  /** When `a + sp` and a longer-or-equal `b + sq` spell the same text,
      `b` is `a`, or `a` followed by digits of `sp`. */
  lemma DigitPrefix(a: string, sp: string, b: string, sq: string)
    requires |a| <= |b| && |sq| >= 1
    requires forall i :: 0 <= i < |sp| ==> '0' <= sp[i] <= '9'
    requires a + sp == b + sq
    ensures a == b || DigitSuffixed(b, a)
  {
    var t := a + sp;
    assert b == t[..|b|];
    assert b[..|a|] == a;
    forall i | |a| <= i < |b|
      ensures '0' <= b[i] <= '9'
    {
      assert b[i] == t[i] == sp[i - |a|];
    }
  }

  /** Counting in a longer prefix finds at least as many. */
  lemma {:induction false} OccurrencesGrow(names: seq<string>, i: nat, j: nat, x: string)
    requires i <= j <= |names|
    ensures Occurrences(names[..i], x) <= Occurrences(names[..j], x)
    ensures i < j && names[i] == x ==> Occurrences(names[..i], x) < Occurrences(names[..j], x)
    decreases j
  {
    if i < j {
      OccurrencesGrow(names, i, j - 1, x);
      assert names[..j][..j - 1] == names[..j - 1];
      if j - 1 == i && names[i] == x {
        assert Occurrences(names[..j], x) == Occurrences(names[..i], x) + 1;
      } else if names[i] == x {
        OccurrencesGrow(names, i + 1, j - 1, x);
        assert names[..i + 1][..i] == names[..i];
      }
    }
  }

  /** Distinct siblings get distinct keys. */
  lemma RenamedKeysDistinct(names: seq<string>, i: nat, j: nat)
    requires NoDigitSuffixed(names)
    requires i < j < |names|
    ensures RenamedKey(names, i) != RenamedKey(names, j)
  {
    if RenamedKey(names, i) == RenamedKey(names, j) {
      SiblingKeysMeet(names[i], Occurrences(names[..i], names[i]), names[j], Occurrences(names[..j], names[j]));
      OccurrencesGrow(names, i, j, names[i]);
    }
  }

  /** One more sibling adds its key at the end: the keys before it do not
      depend on it. */
  lemma RenamedKeysSnoc(names: seq<string>, x: string)
    ensures RenamedKeys(names + [x]) == RenamedKeys(names) + [SiblingKey(x, Occurrences(names, x))]
  {
    var ns := names + [x];
    assert ns[..|names|] == names;
    forall i | 0 <= i < |names|
      ensures RenamedKey(ns, i) == RenamedKey(names, i)
    {
      assert ns[..i] == names[..i] && ns[i] == names[i];
    }
  }

  /** Every sibling's value is kept under its own key, and no two siblings
      share one: the dict has one entry per sibling. */
  lemma RenamedLookup(names: seq<string>, vs: seq<Value>)
    requires |names| == |vs| && NoDigitSuffixed(names)
    ensures forall i :: 0 <= i < |names| ==>
      RenamedKey(names, i) in Renamed(names, vs) && Renamed(names, vs)[RenamedKey(names, i)] == vs[i]
    ensures |Renamed(names, vs)| == |names|
  {
    var keys := RenamedKeys(names);
    forall i, j | 0 <= i < j < |keys|
      ensures keys[i] != keys[j]
    {
      RenamedKeysDistinct(names, i, j);
    }
    Collections.StoreLookup(keys, vs);
  }

  // ---------------------------------------------------------------------
  // The loop.
  // ---------------------------------------------------------------------

  /** The counter of `x` as the loop reads it: absent counts as 0. */
  function Counter(count: map<string, nat>, x: string): nat
  {
    if x in count then count[x] else 0
  }

  /** The loop state after the siblings `names` with values `vs`: the
      merged dict is `Renamed` (None before the first sibling), and the
      counter of every name is one less than its number of occurrences,
      once it has a duplicate. */
  ghost predicate Reached(st: MergeState, names: seq<string>, vs: seq<Value>)
    requires |names| == |vs|
  {
    st.merged == (if names == [] then None else Some(Renamed(names, vs))) &&
    forall x :: Counter(st.count, x) == (if Occurrences(names, x) >= 2 then Occurrences(names, x) - 1 else 0)
  }

  /** The bare name of `x` is a key of the merged dict exactly when some
      earlier sibling is named `x`. */
  lemma BareKeyPresent(names: seq<string>, vs: seq<Value>, x: string)
    requires |names| == |vs|
    requires forall j :: 0 <= j < |names| ==> !DigitSuffixed(x, names[j]) && !DigitSuffixed(names[j], x)
    ensures Some(x) in Renamed(names, vs) <==> Occurrences(names, x) >= 1
  {
    Collections.StoreKeys(RenamedKeys(names), vs);
    BareKeyListed(names, x);
  }

  /** The bare name of `x` is among the siblings' keys exactly when some
      sibling is named `x`. */
  lemma {:induction false} BareKeyListed(names: seq<string>, x: string)
    requires forall j :: 0 <= j < |names| ==> !DigitSuffixed(x, names[j]) && !DigitSuffixed(names[j], x)
    ensures Some(x) in RenamedKeys(names) <==> Occurrences(names, x) >= 1
    decreases |names|
  {
    if names != [] {
      var last := |names| - 1;
      var init := names[..last];
      assert forall j :: 0 <= j < last ==> init[j] == names[j];
      BareKeyListed(init, x);
      var y := names[last];
      var key := SiblingKey(y, Occurrences(init, y));
      RenamedKeysSnoc(init, y);
      assert init + [y] == names;
      if Some(x) == key {
        assert SiblingKey(x, 0) == key;
        SiblingKeysMeet(x, 0, y, Occurrences(init, y));
      }
    }
  }

  /** One more sibling named `x` with dict `{x: v}` extends the state. */
  lemma MergeRenamedStep(st: MergeState, names: seq<string>, vs: seq<Value>, x: string, v: Value)
    requires |names| == |vs| && Reached(st, names, vs)
    requires forall j :: 0 <= j < |names| ==> !DigitSuffixed(x, names[j]) && !DigitSuffixed(names[j], x)
    ensures MergeChild(st, x, map[Some(x) := v]).Ok?
    ensures Reached(MergeChild(st, x, map[Some(x) := v]).value, names + [x], vs + [v])
  {
    var m := Occurrences(names, x);
    var count := if m == 0 then st.count else st.count[x := m];
    RenamedSnoc(names, vs, x, v);
    if names == [] {
      assert MergeChild(st, x, map[Some(x) := v]) == Ok(MergeState(Some(map[Some(x) := v]), st.count));
      assert Renamed(names + [x], vs + [v]) == map[Some(x) := v];
    } else {
      var d := Renamed(names, vs);
      assert |d| > 0 by {
        Collections.StoreKeys(RenamedKeys(names), vs);
        assert RenamedKeys(names)[0] in d;
      }
      BareKeyPresent(names, vs, x);
      MergeNextSibling(d, st.count, x, v, m);
    }
    CountersStep(st.count, names, x);
  }

  /** Appending a sibling extends the dict by its key, and counts one more
      occurrence of its name. */
  lemma RenamedSnoc(names: seq<string>, vs: seq<Value>, x: string, v: Value)
    requires |names| == |vs|
    ensures Renamed(names + [x], vs + [v]) == Renamed(names, vs)[SiblingKey(x, Occurrences(names, x)) := v]
    ensures forall y :: Occurrences(names + [x], y) == Occurrences(names, y) + (if x == y then 1 else 0)
  {
    var ns := names + [x];
    assert ns[..|names|] == names;
    RenamedKeysSnoc(names, x);
    Collections.StoreSnoc(RenamedKeys(names), vs, SiblingKey(x, Occurrences(names, x)), v);
  }

  /** The loop body on a sibling after the first: `x` gets its bare name
      when it is new and the next number otherwise, and its counter is
      bumped only in the second case. */
  lemma MergeNextSibling(d: Dict, count: map<string, nat>, x: string, v: Value, m: nat)
    requires |d| > 0
    requires Some(x) in d <==> m >= 1
    requires Counter(count, x) == (if m >= 2 then m - 1 else 0)
    ensures MergeChild(MergeState(Some(d), count), x, map[Some(x) := v]) ==
      Ok(MergeState(Some(d[SiblingKey(x, m) := v]), if m == 0 then count else count[x := m]))
  {
    if m == 0 {
      assert MergeChild(MergeState(Some(d), count), x, map[Some(x) := v]) ==
        Ok(MergeState(Some(d + map[Some(x) := v]), count));
      Collections.MergeSingleton(d, Some(x), v);
    } else {
      MergeDuplicate(x, v, d, count);
    }
  }

  /** The counters after one more sibling named `x`. */
  lemma CountersStep(count: map<string, nat>, names: seq<string>, x: string)
    requires forall y :: Counter(count, y) == (if Occurrences(names, y) >= 2 then Occurrences(names, y) - 1 else 0)
    requires forall y :: Occurrences(names + [x], y) == Occurrences(names, y) + (if x == y then 1 else 0)
    ensures var m := Occurrences(names, x);
      var next := if m == 0 then count else count[x := m];
      forall y :: Counter(next, y) == (if Occurrences(names + [x], y) >= 2 then Occurrences(names + [x], y) - 1 else 0)
  {
  }

  /** The loop over children named `names`, each flattening to `{name: v}`,
      from the state after the first k of them, reaches the state after all
      of them. */
  lemma {:induction false} MergeRenamed(cs: seq<Element>, names: seq<string>, vs: seq<Value>, k: nat, st: MergeState)
    requires |cs| == |names| == |vs| && k <= |cs|
    requires NoDigitSuffixed(names)
    requires forall i :: 0 <= i < |cs| ==>
      StripNs(cs[i].tag) == Some(names[i]) && LxmlToDict(cs[i]) == Ok(map[Some(names[i]) := vs[i]])
    requires Reached(st, names[..k], vs[..k])
    ensures MergeChildren(cs[k..], st).Ok?
    ensures Reached(MergeChildren(cs[k..], st).value, names, vs)
    decreases |cs| - k
  {
    if k == |cs| {
      assert names[..k] == names && vs[..k] == vs && cs[k..] == [];
    } else {
      var step := MergeChild(st, names[k], map[Some(names[k]) := vs[k]]);
      assert step.Ok? && Reached(step.value, names[..k + 1], vs[..k + 1]) by {
        NoDigitSuffixedBefore(names, k);
        MergeRenamedStep(st, names[..k], vs[..k], names[k], vs[k]);
        Collections.TakeSnoc(names, k);
        Collections.TakeSnoc(vs, k);
      }
      assert MergeChildren(cs[k..], st) == MergeChildren(cs[k + 1..], step.value) by {
        var rest := cs[k..];
        assert rest[0] == cs[k] && rest[1..] == cs[k + 1..];
        assert MergeStep(cs[k], st) == step;
      }
      MergeRenamed(cs, names, vs, k + 1, step.value);
    }
  }

  /** The side condition between the k-th name and the names before it. */
  lemma NoDigitSuffixedBefore(names: seq<string>, k: nat)
    requires k < |names| && NoDigitSuffixed(names)
    ensures forall j :: 0 <= j < k ==> !DigitSuffixed(names[k], names[..k][j]) && !DigitSuffixed(names[..k][j], names[k])
  {
    forall j | 0 <= j < k
      ensures !DigitSuffixed(names[k], names[..k][j]) && !DigitSuffixed(names[..k][j], names[k])
    {
      assert names[..k][j] == names[j];
      assert !DigitSuffixed(names[k], names[j]) && !DigitSuffixed(names[j], names[k]);
    }
  }

  /** An element whose children have the local names `names` and each
      flatten to `{name: v}` flattens to `{tag: d}` where d holds the i-th
      child's value under its name followed by the number of earlier
      siblings of that name (none for the first): `a, b, a` give the keys
      `a`, `b`, `a1`. No value is lost, provided no child's name is another
      child's name followed by digits. */
  lemma SiblingsRenamed(e: Element, names: seq<string>, vs: seq<Value>)
    requires |e.children| == |names| == |vs| >= 1
    requires NoDigitSuffixed(names)
    requires forall i :: 0 <= i < |names| ==>
      StripNs(e.children[i].tag) == Some(names[i]) && LxmlToDict(e.children[i]) == Ok(map[Some(names[i]) := vs[i]])
    ensures LxmlToDict(e) == Ok(map[StripNs(e.tag) := Dict(Renamed(names, vs))])
    ensures forall i :: 0 <= i < |names| ==>
      var key := if Occurrences(names[..i], names[i]) == 0 then names[i]
                 else names[i] + Digits.NatToString(Occurrences(names[..i], names[i]));
      Some(key) in Renamed(names, vs) && Renamed(names, vs)[Some(key)] == vs[i]
    ensures |Renamed(names, vs)| == |vs|
  {
    assert names[..0] == [] && vs[..0] == [];
    assert Reached(Start, [], []);
    MergeRenamed(e.children, names, vs, 0, Start);
    assert e.children[0..] == e.children;
    RenamedLookup(names, vs);
  }
}

=== FILE: strings.dfy ===
/** The Python string operations the validator relies on: `split` with a
    one-character separator, `join` and the substring test `k in s`. */
module Strings {

  /** Number of occurrences of `c` in `s`. */
  function Count(s: string, c: char): nat
  {
    if s == [] then 0 else (if s[0] == c then 1 else 0) + Count(s[1..], c)
  }

  /** `sep.join(parts)`. */
  function Join(parts: seq<string>, sep: char): string
    requires |parts| >= 1
  {
    if |parts| == 1 then parts[0] else parts[0] + [sep] + Join(parts[1..], sep)
  }

  /** `s.split(sep)` for a one-character separator: the runs between
      separators, empty runs included. */
  function Split(s: string, sep: char): (parts: seq<string>)
    ensures |parts| == Count(s, sep) + 1
    ensures forall i :: 0 <= i < |parts| ==> sep !in parts[i]
  {
    if s == [] then [""]
    else
      var rest := Split(s[1..], sep);
      if s[0] == sep then
        [""] + rest
      else
        var parts := [[s[0]] + rest[0]] + rest[1..];
        assert parts[1..] == rest[1..];
        parts
  }

  /** Joining the parts with the separator gives the string back: no
      character is lost or added by `split`. */
  lemma {:induction false} JoinSplit(s: string, sep: char)
    ensures Join(Split(s, sep), sep) == s
    decreases |s|
  {
    if s != [] {
      var t := s[1..];
      var P := Split(t, sep);
      JoinSplit(t, sep);
      SplitCons(s[0], t, sep);
      assert s == [s[0]] + t;
      if s[0] == sep {
        assert ([""] + P)[1..] == P;
      } else {
        JoinPrepend(s[0], P, sep);
      }
    }
  }

  /** Adding a character to the first part adds it to the joined string. */
  lemma JoinPrepend(c: char, P: seq<string>, sep: char)
    requires |P| >= 1
    ensures Join([[c] + P[0]] + P[1..], sep) == [c] + Join(P, sep)
  {
    var Q := [[c] + P[0]] + P[1..];
    assert Q[1..] == P[1..];
  }

  lemma {:induction false} SplitWithoutSeparator(a: string, sep: char)
    requires sep !in a
    ensures Split(a, sep) == [a]
    decreases |a|
  {
    if a != [] {
      assert sep !in a[1..];
      SplitWithoutSeparator(a[1..], sep);
      assert [a[0]] + a[1..] == a;
    }
  }

  /** Splitting a string with a first character `c`: a separator opens an
      empty first part, any other character joins the first part. */
  lemma SplitCons(c: char, t: string, sep: char)
    ensures Split([c] + t, sep) ==
      if c == sep then [""] + Split(t, sep)
      else [[c] + Split(t, sep)[0]] + Split(t, sep)[1..]
  {
    assert ([c] + t)[0] == c && ([c] + t)[1..] == t;
  }

  /** A part free of the separator, followed by the separator, becomes the
      first part on its own. */
  lemma {:induction false} SplitFirstPart(p: string, t: string, sep: char)
    requires sep !in p
    ensures Split(p + [sep] + t, sep) == [p] + Split(t, sep)
    decreases |p|
  {
    if p == [] {
      assert p + [sep] + t == [sep] + t;
      SplitCons(sep, t, sep);
    } else {
      var q := p[1..];
      var X := Split(q + [sep] + t, sep);
      assert sep !in q;
      assert X == [q] + Split(t, sep) by {
        SplitFirstPart(q, t, sep);
      }
      assert p + [sep] + t == [p[0]] + (q + [sep] + t);
      assert Split(p + [sep] + t, sep) == [[p[0]] + X[0]] + X[1..] by {
        SplitCons(p[0], q + [sep] + t, sep);
      }
      assert [p[0]] + q == p;
      assert X[0] == q && X[1..] == Split(t, sep);
    }
  }

  /** Splitting undoes joining: parts free of the separator come back
      unchanged, so `Split` and `Join` are inverse in both directions. */
  lemma {:induction false} SplitJoin(parts: seq<string>, sep: char)
    requires |parts| >= 1
    requires forall i :: 0 <= i < |parts| ==> sep !in parts[i]
    ensures Split(Join(parts, sep), sep) == parts
    decreases |parts|
  {
    if |parts| == 1 {
      SplitWithoutSeparator(parts[0], sep);
    } else {
      SplitJoin(parts[1..], sep);
      SplitFirstPart(parts[0], Join(parts[1..], sep), sep);
      assert [parts[0]] + parts[1..] == parts;
    }
  }

  /** Joining two lists of parts puts one separator between their joins. */
  lemma {:induction false} JoinAppend(A: seq<string>, B: seq<string>, sep: char)
    requires |A| >= 1 && |B| >= 1
    ensures Join(A + B, sep) == Join(A, sep) + [sep] + Join(B, sep)
    decreases |A|
  {
    assert (A + B)[0] == A[0];
    if |A| == 1 {
      assert (A + B)[1..] == B;
    } else {
      assert (A + B)[1..] == A[1..] + B;
      JoinAppend(A[1..], B, sep);
    }
  }

  /** A separator between two strings separates their parts: the parts of
      the whole are the parts of each side, in order. */
  lemma SplitConcat(a: string, b: string, sep: char)
    ensures Split(a + [sep] + b, sep) == Split(a, sep) + Split(b, sep)
  {
    var A := Split(a, sep);
    var B := Split(b, sep);
    JoinSplit(a, sep);
    JoinSplit(b, sep);
    JoinAppend(A, B, sep);
    NoSeparatorAppend(A, B, sep);
    SplitJoin(A + B, sep);
  }

  /** Parts free of the separator stay free of it when lists are joined. */
  lemma NoSeparatorAppend(A: seq<string>, B: seq<string>, sep: char)
    requires forall i :: 0 <= i < |A| ==> sep !in A[i]
    requires forall i :: 0 <= i < |B| ==> sep !in B[i]
    ensures forall i :: 0 <= i < |A + B| ==> sep !in (A + B)[i]
  {
    forall i | 0 <= i < |A + B|
      ensures sep !in (A + B)[i]
    {
      if i < |A| {
        assert (A + B)[i] == A[i];
      } else {
        assert (A + B)[i] == B[i - |A|];
      }
    }
  }

  /** `k in s` for two strings: `k` occurs in `s` at some position. */
  function IsInfix(k: string, s: string): (b: bool)
    ensures b <==> exists i :: 0 <= i <= |s| - |k| && k <= s[i..]
    decreases |s|
  {
    if k <= s then
      assert k <= s[0..];
      true
    else if s == [] then false
    else
      var b := IsInfix(k, s[1..]);
      assert forall i :: 1 <= i <= |s| ==> s[i..] == s[1..][i - 1..];
      b
  }
}

=== FILE: whitespace.dfy ===
/** `str.strip()` with no argument: whitespace as `str.isspace()` defines it. */
module Whitespace {

  /** The characters `str.isspace()` accepts. */
  const SpaceChars: set<char> := {
    ' ', '\t', '\n', '\U{0B}', '\U{0C}', '\r',
    '\U{1C}', '\U{1D}', '\U{1E}', '\U{1F}',
    '\U{85}', '\U{A0}', '\U{1680}',
    '\U{2000}', '\U{2001}', '\U{2002}', '\U{2003}', '\U{2004}', '\U{2005}',
    '\U{2006}', '\U{2007}', '\U{2008}', '\U{2009}', '\U{200A}',
    '\U{2028}', '\U{2029}', '\U{202F}', '\U{205F}', '\U{3000}'
  }

  predicate IsSpace(c: char)
  {
    c in SpaceChars
  }

  predicate AllSpace(s: string)
  {
    forall i :: 0 <= i < |s| ==> IsSpace(s[i])
  }

  function LeadingSpaces(s: string): (k: nat)
    ensures k <= |s| && AllSpace(s[..k])
    ensures k < |s| ==> !IsSpace(s[k])
  {
    if s != [] && IsSpace(s[0]) then
      var k := 1 + LeadingSpaces(s[1..]);
      assert s[..k] == [s[0]] + s[1..][..k - 1];
      k
    else 0
  }

  function TrailingSpaces(s: string): (k: nat)
    ensures k <= |s| && AllSpace(s[|s| - k..])
    ensures k < |s| ==> !IsSpace(s[|s| - k - 1])
  {
    if s != [] && IsSpace(s[|s| - 1]) then
      var k := 1 + TrailingSpaces(s[..|s| - 1]);
      assert s[|s| - k..] == s[..|s| - 1][|s| - k..] + [s[|s| - 1]];
      k
    else 0
  }

  /** `r` is `s` with the whitespace at both ends removed: an infix of `s`
      framed by whitespace only, neither beginning nor ending with
      whitespace. */
  predicate IsStripOf(r: string, s: string)
  {
    && (exists i :: 0 <= i <= |s| - |r| && s[i..i + |r|] == r && AllSpace(s[..i]) && AllSpace(s[i + |r|..]))
    && (|r| > 0 ==> !IsSpace(r[0]) && !IsSpace(r[|r| - 1]))
  }

  /** `s.strip()`. A string that already has no whitespace at its ends is
      returned as it is. */
  function StripSpace(s: string): (r: string)
    ensures IsStripOf(r, s)
    ensures (|s| == 0 || (!IsSpace(s[0]) && !IsSpace(s[|s| - 1]))) ==> r == s
  {
    var i := LeadingSpaces(s);
    var rest := s[i..];
    var j := TrailingSpaces(rest);
    var r := rest[..|rest| - j];
    StripCorrect(s, i, rest, j, r);
    r
  }

  /** Cutting a whitespace run off each end, each run as long as it can be,
      leaves what `strip()` promises. */
  lemma StripCorrect(s: string, i: nat, rest: string, j: nat, r: string)
    requires i <= |s| && rest == s[i..] && j <= |rest| && r == rest[..|rest| - j]
    requires AllSpace(s[..i]) && AllSpace(rest[|rest| - j..])
    requires i < |s| ==> !IsSpace(s[i])
    requires j < |rest| ==> !IsSpace(rest[|rest| - j - 1])
    ensures IsStripOf(r, s)
    ensures (|s| == 0 || (!IsSpace(s[0]) && !IsSpace(s[|s| - 1]))) ==> r == s
  {
    StripFramed(s, i, rest, j, r);
    StripEnds(s, i, rest, j, r);
    StripUnchanged(s, i, rest, j, r);
  }

  /** What is cut off at either end is whitespace. */
  lemma StripFramed(s: string, i: nat, rest: string, j: nat, r: string)
    requires i <= |s| && rest == s[i..] && j <= |rest| && r == rest[..|rest| - j]
    requires AllSpace(s[..i]) && AllSpace(rest[|rest| - j..])
    ensures exists k :: 0 <= k <= |s| - |r| && s[k..k + |r|] == r && AllSpace(s[..k]) && AllSpace(s[k + |r|..])
  {
    assert s[i..i + |r|] == r;
    assert s[i + |r|..] == rest[|rest| - j..];
  }

  /** The first and last characters kept are not whitespace. */
  lemma StripEnds(s: string, i: nat, rest: string, j: nat, r: string)
    requires i <= |s| && rest == s[i..] && j <= |rest| && r == rest[..|rest| - j]
    requires i < |s| ==> !IsSpace(s[i])
    requires j < |rest| ==> !IsSpace(rest[|rest| - j - 1])
    ensures |r| > 0 ==> !IsSpace(r[0]) && !IsSpace(r[|r| - 1])
  {
    assert |r| > 0 ==> r[0] == s[i] && r[|r| - 1] == rest[|rest| - j - 1];
  }

  /** Nothing is cut off a string whose ends are not whitespace. */
  lemma StripUnchanged(s: string, i: nat, rest: string, j: nat, r: string)
    requires i <= |s| && rest == s[i..] && j <= |rest| && r == rest[..|rest| - j]
    requires AllSpace(s[..i]) && AllSpace(rest[|rest| - j..])
    ensures (|s| == 0 || (!IsSpace(s[0]) && !IsSpace(s[|s| - 1]))) ==> r == s
  {
    if |s| > 0 && i > 0 {
      assert s[..i][0] == s[0];
    }
    if |s| > 0 && j > 0 {
      assert rest[|rest| - j..][j - 1] == s[|s| - 1];
    }
  }

  /** Whitespace in front of a string that does not start with whitespace
      is exactly the leading run. */
  lemma {:induction false} LeadingSpacesPadded(a: string, t: string)
    requires AllSpace(a) && |t| > 0 && !IsSpace(t[0])
    ensures LeadingSpaces(a + t) == |a|
    decreases |a|
  {
    if a == [] {
      assert a + t == t;
    } else {
      assert (a + t)[0] == a[0];
      assert (a + t)[1..] == a[1..] + t;
      LeadingSpacesPadded(a[1..], t);
    }
  }

  /** Whitespace after a string that does not end with whitespace is
      exactly the trailing run. */
  lemma {:induction false} TrailingSpacesPadded(t: string, b: string)
    requires AllSpace(b) && |t| > 0 && !IsSpace(t[|t| - 1])
    ensures TrailingSpaces(t + b) == |b|
    decreases |b|
  {
    if b == [] {
      assert t + b == t;
    } else {
      var tb := t + b;
      assert tb[|tb| - 1] == b[|b| - 1];
      assert tb[..|tb| - 1] == t + b[..|b| - 1];
      TrailingSpacesPadded(t, b[..|b| - 1]);
    }
  }

  /** `strip()` removes exactly the whitespace padding around a non-empty
      string that neither begins nor ends with whitespace. */
  lemma StripPadded(a: string, core: string, b: string)
    requires AllSpace(a) && AllSpace(b)
    requires |core| > 0 && !IsSpace(core[0]) && !IsSpace(core[|core| - 1])
    ensures StripSpace(a + core + b) == core
  {
    var s := a + core + b;
    assert s == a + (core + b);
    LeadingSpacesPadded(a, core + b);
    assert s[|a|..] == core + b;
    TrailingSpacesPadded(core, b);
    assert (core + b)[..|core + b| - |b|] == core;
  }
}

=== FILE: wrappers.dfy ===
/** Option and Result types, and the Python exception kinds the modelled code can raise. */
module Wrappers {

  import Collections

  /** Python's `None` versus a present value. */
  datatype Option<+T> = None | Some(value: T)

  /** The exceptions of the validator, by class; their message text is not modelled. */
  datatype PyError =
    | KeyError        // a dict indexed with a missing key
    | TypeError       // `in` applied to None, a str or None indexed with a str
    | AttributeError  // `.text` of a missing element, `.split` of a missing text
    | IndexError      // a matrix column that does not exist
    | ValueError      // a tuple unpacking of the wrong arity, `float()` of a non-number

  /** A value, or the exception raised while computing it. */
  datatype Result<+T> = Ok(value: T) | Err(error: PyError) {

    predicate IsFailure() {
      Err?
    }

    function PropagateFailure<U>(): Result<U>
      requires Err?
    {
      Err(error)
    }

    function Extract(): T
      requires Ok?
    {
      value
    }
  }

  /** A loop that appends `f(x)` for each `x` in turn, where the first call
      that raises stops the loop with its exception. */
  function MapAll<T, U>(xs: seq<T>, f: T -> Result<U>): (r: Result<seq<U>>)
    ensures r.Ok? <==> forall i :: 0 <= i < |xs| ==> f(xs[i]).Ok?
    ensures r.Ok? ==> |r.value| == |xs| && forall i :: 0 <= i < |xs| ==> f(xs[i]) == Ok(r.value[i])
    ensures r.Err? ==> exists i :: 0 <= i < |xs| && f(xs[i]) == Err(r.error)
  {
    if xs == [] then Ok([])
    else
      Collections.TailIndex(xs);
      var first :- f(xs[0]);
      var rest :- MapAll(xs[1..], f);
      Collections.ConsIndex(first, rest);
      Ok([first] + rest)
  }
}

=== FILE: xml.dfy ===
/** The parsed XML tree, namespace stripping of tags, and the element
    searches of the document parser, which walk the tree's end events. */
module Xml {
  import opened Wrappers
  import Collections

  /** An element of a parsed tree. `tag` is None for a node whose tag is
      not a string (a comment or a processing instruction); a namespaced
      tag is written `{uri}local`. */
  datatype Element = Element(tag: Option<string>, text: Option<string>, children: seq<Element>)

  // ---------------------------------------------------------------------
  // Namespace stripping: `re.sub('{.*}', '', name)`. The pattern matches a
  // `{`, then as many characters other than a newline as possible, then a
  // `}`; the substitution scans left to right and resumes after each match.
  // ---------------------------------------------------------------------

  /** Where the greedy `.*}` that follows a `{` stops: the index in `t` of
      the last `}` before the first newline, if there is one. */
  function CloseOnLine(t: string): (r: Option<nat>)
    ensures r.Some? ==> r.value < |t| && t[r.value] == '}' && '\n' !in t[..r.value]
    ensures forall k :: 0 <= k < |t| && t[k] == '}' && '\n' !in t[..k] ==> r.Some? && k <= r.value
  {
    if t == [] || t[0] == '\n' then None
    else
      match CloseOnLine(t[1..])
      case Some(q) =>
        assert t[..q + 1] == [t[0]] + t[1..][..q];
        Some(q + 1)
      case None =>
        assert forall k :: 1 <= k < |t| ==> t[k] == t[1..][k - 1] && t[..k] == [t[0]] + t[1..][..k - 1];
        if t[0] == '}' then Some(0) else None
  }

  /** The substitution itself, on a whole string. Without a `{`, or
      without a `}`, the pattern cannot match and the string is kept. */
  function StripBraces(s: string): (r: string)
    ensures |r| <= |s|
    ensures '{' !in s ==> r == s
    ensures '}' !in s ==> r == s
  {
    if s == [] then []
    else if s[0] == '{' && CloseOnLine(s[1..]).Some? then StripBraces(s[CloseOnLine(s[1..]).value + 2..])
    else [s[0]] + StripBraces(s[1..])
  }

  /** `stripNSFromTagName`: None for a tag that is not a string, otherwise
      the tag with its `{...}` namespace part removed. */
  function StripNs(tag: Option<string>): (r: Option<string>)
    ensures r.None? <==> tag.None?
    ensures tag.Some? ==> |r.value| <= |tag.value|
  {
    match tag
    case None => None
    case Some(s) => Some(StripBraces(s))
  }

  /** No `{` is followed by a `}` on the same line: the pattern has no match. */
  predicate NoBracePair(s: string)
  {
    forall p, q :: 0 <= p < q < |s| && s[p] == '{' && s[q] == '}' ==> '\n' in s[p..q]
  }

  lemma NoBracePairCons(c: char, t: string)
    ensures NoBracePair([c] + t) <==> NoBracePair(t) && (c == '{' ==> CloseOnLine(t).None?)
  {
    var s := [c] + t;
    assert forall k :: 0 <= k < |t| ==> s[k + 1] == t[k];
    assert forall p, q :: 1 <= p <= q <= |s| ==> s[p..q] == t[p - 1..q - 1];
    assert forall q :: 1 <= q <= |s| ==> s[0..q] == [c] + t[..q - 1];
    if NoBracePair(s) {
      forall p, q | 0 <= p < q < |t| && t[p] == '{' && t[q] == '}'
        ensures '\n' in t[p..q]
      {
        assert s[p + 1] == '{' && s[q + 1] == '}';
        assert '\n' in s[p + 1..q + 1];
      }
    }
    if c == '{' && CloseOnLine(t).Some? {
      var q := CloseOnLine(t).value;
      assert s[0] == '{' && s[q + 1] == '}';
      assert '\n' !in s[0..q + 1];
      assert !NoBracePair(s);
    }
    if NoBracePair(t) && (c == '{' ==> CloseOnLine(t).None?) {
      forall p, q | 0 <= p < q < |s| && s[p] == '{' && s[q] == '}'
        ensures '\n' in s[p..q]
      {
        if p == 0 {
          assert t[q - 1] == '}';
        } else {
          assert t[p - 1] == '{' && t[q - 1] == '}';
        }
      }
    }
  }

  /** The substitution changes a string exactly when the pattern matches
      somewhere in it. */
  lemma {:induction false} StripBracesUnchanged(s: string)
    ensures StripBraces(s) == s <==> NoBracePair(s)
    decreases |s|
  {
    if s != [] {
      assert s == [s[0]] + s[1..];
      NoBracePairCons(s[0], s[1..]);
      StripBracesUnchanged(s[1..]);
    }
  }

  /** Removing the matches never joins a `{` and a `}` onto one line with
      no newline between them, so the first line of the result has no `}`
      when the first line of the input had none. */
  lemma {:induction false} FirstLineKeepsNoClose(t: string)
    requires CloseOnLine(t).None?
    ensures CloseOnLine(StripBraces(t)).None?
    decreases |t|
  {
    if t != [] && t[0] != '\n' {
      assert t[0] != '}' && CloseOnLine(t[1..]).None?;
      FirstLineKeepsNoClose(t[1..]);
    }
  }

  /** What the substitution leaves has no match left. */
  lemma {:induction false} StripBracesLeavesNoPair(s: string)
    ensures NoBracePair(StripBraces(s))
    decreases |s|
  {
    if s != [] {
      if s[0] == '{' && CloseOnLine(s[1..]).Some? {
        StripBracesLeavesNoPair(s[CloseOnLine(s[1..]).value + 2..]);
      } else {
        StripBracesLeavesNoPair(s[1..]);
        if s[0] == '{' {
          FirstLineKeepsNoClose(s[1..]);
        }
        NoBracePairCons(s[0], StripBraces(s[1..]));
      }
    }
  }

  /** Stripping a namespace twice is stripping it once. */
  lemma StripNsIdempotent(tag: Option<string>)
    ensures StripNs(StripNs(tag)) == StripNs(tag)
  {
    if tag.Some? {
      StripBracesLeavesNoPair(tag.value);
      StripBracesUnchanged(StripBraces(tag.value));
    }
  }

  lemma StripBracesCons(c: char, t: string)
    requires c != '{'
    ensures StripBraces([c] + t) == [c] + StripBraces(t)
  {
    assert ([c] + t)[1..] == t;
  }

  lemma {:induction false} StripBracesPlain(a: string, b: string)
    requires '{' !in a
    ensures StripBraces(a + b) == a + StripBraces(b)
    decreases |a|
  {
    if a != [] {
      var t := a[1..];
      assert a[0] in a;
      assert [a[0]] + t == a;
      assert '{' !in t by {
        assert forall k :: 0 <= k < |t| ==> t[k] == a[k + 1];
      }
      StripBracesPlain(t, b);
      StripBracesCons(a[0], t + b);
      Collections.AppendAssoc([a[0]], t, b);
      Collections.AppendAssoc([a[0]], t, StripBraces(b));
    } else {
      assert a + b == b;
    }
  }

  /** After `{`, a namespace `u` without newline and a rest without `}`,
      the greedy match closes at the `}` right after `u`. */
  lemma {:induction false} CloseAfterNamespace(u: string, b: string)
    requires '\n' !in u && '}' !in b
    ensures CloseOnLine(u + "}" + b) == Some(|u|)
    decreases |u|
  {
    var t := u + "}" + b;
    if u == [] {
      assert t == "}" + b && t[1..] == b;
      assert CloseOnLine(b).None?;
    } else {
      assert u[0] in u;
      assert t[0] == u[0] && t[1..] == u[1..] + "}" + b;
      CloseAfterNamespace(u[1..], b);
    }
  }

  /** A `{` whose match closes at index `q` of the rest removes everything
      up to and including that `}`. */
  lemma StripBracesAtOpen(t: string, q: nat)
    requires CloseOnLine(t) == Some(q)
    ensures StripBraces("{" + t) == StripBraces(t[q + 1..])
  {
    var braced := "{" + t;
    assert braced[0] == '{' && braced[1..] == t;
    assert braced[q + 2..] == t[q + 1..];
  }

  /** A `{u}` whose `u` has no newline, followed by a `b` without `}`, is
      removed as a whole. */
  lemma StripBracesSkip(u: string, b: string)
    requires '\n' !in u && '}' !in b
    ensures StripBraces("{" + u + "}" + b) == b
  {
    var t := u + "}" + b;
    assert "{" + u + "}" + b == "{" + t;
    CloseAfterNamespace(u, b);
    StripBracesAtOpen(t, |u|);
    assert t[|u| + 1..] == b;
  }

  /** On a tag of the form `a{u}b` whose `a` has no `{`, whose `u` has no
      newline and whose `b` has no `}`, the first `{` up to the last `}`
      is removed; in particular `{uri}local` becomes `local`. */
  lemma StripBracesNamespace(a: string, u: string, b: string)
    requires '{' !in a && '\n' !in u && '}' !in b
    ensures StripBraces(a + "{" + u + "}" + b) == a + b
  {
    var braced := "{" + u + "}" + b;
    assert a + "{" + u + "}" + b == a + braced by {
      Collections.AppendAssoc(a, "{" + u + "}", b);
      Collections.AppendAssoc(a, "{" + u, "}");
      Collections.AppendAssoc(a, "{", u);
    }
    StripBracesPlain(a, braced);
    StripBracesSkip(u, b);
  }

  /** `{uri}local` strips to `local`. */
  lemma StripNamespace(uri: string, local: string)
    requires '\n' !in uri && '}' !in local
    ensures StripNs(Some("{" + uri + "}" + local)) == Some(local)
  {
    var tag := "{" + uri + "}" + local;
    assert "" + "{" + uri + "}" + local == tag by {
      assert "" + "{" == "{";
    }
    assert "" + local == local;
    StripBracesNamespace("", uri, local);
  }

  // ---------------------------------------------------------------------
  // Element search. `etree.iterwalk(tree, events=('end',))` reports each
  // element after all of its descendants: a post-order walk.
  // ---------------------------------------------------------------------

  /** The elements of the subtree in the order their end events arrive. */
  function PostOrder(e: Element): (r: seq<Element>)
    ensures |r| >= 1 && r[|r| - 1] == e
  {
    PostOrderAll(e.children) + [e]
  }

  function PostOrderAll(cs: seq<Element>): seq<Element>
  {
    if cs == [] then [] else PostOrder(cs[0]) + PostOrderAll(cs[1..])
  }

  /** The element's local name is `name`; never true of a comment. */
  predicate Named(e: Element, name: string)
  {
    StripNs(e.tag) == Some(name)
  }

  /** The elements of `es` named `name`, in the order of `es`. */
  function Filter(es: seq<Element>, name: string): (r: seq<Element>)
    ensures forall x :: x in r <==> x in es && Named(x, name)
    ensures |r| <= |es|
  {
    if es == [] then []
    else (if Named(es[0], name) then [es[0]] else []) + Filter(es[1..], name)
  }

  lemma {:induction false} FilterAppend(a: seq<Element>, b: seq<Element>, name: string)
    ensures Filter(a + b, name) == Filter(a, name) + Filter(b, name)
    decreases |a|
  {
    if a != [] {
      var s := a + b;
      assert s[0] == a[0] && s[1..] == a[1..] + b;
      FilterAppend(a[1..], b, name);
      var head := if Named(a[0], name) then [a[0]] else [];
      assert Filter(s, name) == head + (Filter(a[1..], name) + Filter(b, name));
      assert Filter(a, name) == head + Filter(a[1..], name);
      Collections.AppendAssoc(head, Filter(a[1..], name), Filter(b, name));
    } else {
      assert a + b == b;
    }
  }

  /** Every element of the subtree named `name`, computed on the tree. */
  function NamedIn(e: Element, name: string): seq<Element>
  {
    NamedInAll(e.children, name) + (if Named(e, name) then [e] else [])
  }

  function NamedInAll(cs: seq<Element>, name: string): seq<Element>
  {
    if cs == [] then [] else NamedIn(cs[0], name) + NamedInAll(cs[1..], name)
  }

  /** The search on the tree collects exactly the matches of the end-event
      walk, in walk order. */
  lemma {:induction false} NamedInIsFilteredPostOrder(e: Element, name: string)
    ensures NamedIn(e, name) == Filter(PostOrder(e), name)
    decreases e, 1
  {
    NamedInAllIsFilteredPostOrder(e.children, name);
    FilterAppend(PostOrderAll(e.children), [e], name);
  }

  lemma {:induction false} NamedInAllIsFilteredPostOrder(cs: seq<Element>, name: string)
    ensures NamedInAll(cs, name) == Filter(PostOrderAll(cs), name)
    decreases cs, 0
  {
    if cs != [] {
      NamedInIsFilteredPostOrder(cs[0], name);
      NamedInAllIsFilteredPostOrder(cs[1..], name);
      FilterAppend(PostOrder(cs[0]), PostOrderAll(cs[1..]), name);
    }
  }

  /** `getListOfElementsByTagName`: all elements of the tree, the root
      included, whose local name is `name`, in post-order; None when there
      is none. */
  function GetListOfElementsByTagName(root: Element, name: string): (r: Option<seq<Element>>)
    ensures r.None? <==> forall x :: x in PostOrder(root) ==> !Named(x, name)
    ensures r.Some? ==> |r.value| >= 1 && r.value == Filter(PostOrder(root), name)
  {
    NamedInIsFilteredPostOrder(root, name);
    var found := NamedIn(root, name);
    if |found| != 0 then
      assert found[0] in found;
      Some(found)
    else None
  }

  /** `getElementByTagName` and `getChildElementByTagName`: the walk stops
      at the first end event whose element is named `name`. The result is
      the first element that the list search collects. */
  function FirstNamed(e: Element, name: string): (r: Option<Element>)
    ensures r == (if NamedIn(e, name) == [] then None else Some(NamedIn(e, name)[0]))
    decreases e, 1
  {
    match FirstNamedAll(e.children, name)
    case Some(x) => Some(x)
    case None => if Named(e, name) then Some(e) else None
  }

  function FirstNamedAll(cs: seq<Element>, name: string): (r: Option<Element>)
    ensures r == (if NamedInAll(cs, name) == [] then None else Some(NamedInAll(cs, name)[0]))
    decreases cs, 0
  {
    if cs == [] then None
    else
      match FirstNamed(cs[0], name)
      case Some(x) => Some(x)
      case None => FirstNamedAll(cs[1..], name)
  }

  /** The single-element search returns the head of the list search, and
      finds nothing exactly when the list search does. */
  lemma FirstNamedIsHeadOfList(root: Element, name: string)
    ensures FirstNamed(root, name).None? <==> GetListOfElementsByTagName(root, name).None?
    ensures FirstNamed(root, name).Some? ==>
      FirstNamed(root, name).value == GetListOfElementsByTagName(root, name).value[0]
  {
    NamedInIsFilteredPostOrder(root, name);
  }
}
